=== FILE: README.md ===
# Message log — a Dafny model of the message-list engine

The message_log Home Assistant integration keeps a log of messages. Each
message has a level: INFO, ATTENTION, WARNING or ERROR. This project models the
integration's engine as pure Dafny functions and proves what the code promises.
It covers:

- the **store**: messages are added newest-first, removed by level or all at
  once, and swept out when they expire. The store keeps the highest level
  present, and every add fires bus events;
- the **preferences**: a list order (by time added or by level) and a list
  filter (all messages or one level), changed by services that either cycle or
  take a name;
- the **sorted view**: the filtered messages grouped by level, highest first,
  with store order kept within each level, or left in store order;
- the **scroll cursor**: on each refresh it steps through the first
  `scroll_through_last_messages_count` entries of the unfiltered sorted view;
- the two **markdown views** and the **sensor accessors**. The "latest and
  scroll" view shows a header, the newest message and the message at the
  cursor. The message list shows a header and the first
  `markdown_message_list_count` entries of the filtered sorted view. The views
  are modelled as structured lines: colour, icon, caption, text and time added;
- the **device triggers**: the six trigger types, the trigger list, and the
  event an attached trigger listens to;
- the **translation table**: a parsed translation file flattened to dotted
  keys, with an optional prefix filter, a lookup with a default, and a
  process-wide cache that reloads only when the language changes.

Module layout, one file each:

- `Builtins`: the Python semantics the code relies on: `list[i]` with negative
  indices and IndexError, `Enum[name]` with KeyError, ASCII `upper`, `lower` and
  `capitalize`, list comprehensions as `Filter`, and order-preserving
  subsequences;
- `Levels`, `Settings`, `Const`: the enumerations, the message item and settings
  record, and the options with their defaults;
- `Store`: adding, removing, the expiry sweep, and the order and filter
  services;
- `Sorting`: the sorted view;
- `Views`: the cursor, the markdown views, the accessors and the refresh;
- `DeviceTrigger`: the device triggers;
- `Translate`: key flattening and the language cache.

Time is measured in whole seconds, and the clock reading is a parameter (`now`).
The names `EVENT_NEW_LOG_ENTRY`, `EVENT_NEW_NOTIFY_LOG_ENTRY` and
`SOURCE_SERVICE` are used by the code but defined in no file modelled here. They
are passed in as a `HostNames` record of opaque strings.

The model keeps the following behaviour of the code as written:

- Nothing stops the scroll line from showing the newest message again, right
  under the latest-message line (`Views.ScrollLineMayRepeatLatest`).
- An item's expiry instant counts from the moment the item is constructed,
  whatever `added_at` says.
- Adds insert at the front of the list, so the list is newest first.
- Cycling the order or the filter calls `succ(True)`, which is taken to wrap
  from the last member to the first (see "Left out").
- Naming a filter explicitly in the show service looks the name up among the
  *order* members and assigns the order.
- The `message_scroll` sensor indexes the unsorted store with a cursor that
  counts positions in the sorted view.
- A `MessageLevel` member passed directly to the item constructor, rather than
  a string, leaves the item at INFO.

## Model

| member | source | states |
|---|---|---|
| Levels.LevelsTotallyOrdered | custom_components/message_log/message_log_settings.py:14-20 | The levels have values 10, 20, 30, 40 and are totally ordered INFO < ATTENTION < WARNING < ERROR. Iterating the enum yields each level exactly once, in ascending order. |
| Levels.ColorsDistinct | custom_components/message_log/message_log_settings.py:23-33 | Every level has a non-empty display colour, and no two levels share one. |
| Levels.ParseLevel | custom_components/message_log/message_log_settings.py:78-82 | A level is found exactly when its name equals the upper-cased string. Otherwise no member has that name, which is the KeyError case. |
| Levels.ParseLevelIgnoresCase | custom_components/message_log/message_log_settings.py:78-82 | A string parses to a level if and only if it spells that level's name in any mix of upper and lower case. A level's name and its lower-case name both parse back to it. |
| Levels.NextShowIsNextDeclared | custom_components/message_log/component_api.py:298-301 | `Levels.NextShow`, the filter cycle, moves to the next member in declaration order and wraps from ALL to INFO. |
| Levels.CycleShowWraps | custom_components/message_log/component_api.py:298-301 | After k cycles the filter is k places further along the declaration order, modulo the five members. |
| Levels.CycleShowReachesAll | custom_components/message_log/message_log_settings.py:38-45 | Five cycles return to the start, and any filter reaches any other within five cycles. |
| Levels.NextOrderBy | custom_components/message_log/component_api.py:279-282 | Cycling the order always changes it. |
| Levels.NextOrderByCycles | custom_components/message_log/message_log_settings.py:50-54 | Two cycles of the order return to the start. |
| Levels.ParseOrderBy | custom_components/message_log/component_api.py:285-287 | An order is found exactly when its name equals the upper-cased string, and otherwise none has it. |
| Levels.ShowNamesAreNotOrderNames | custom_components/message_log/message_log_settings.py:38-54 | No filter name, ALL included, is the name of an order. |
| Settings.NewMessageItem | custom_components/message_log/message_log_settings.py:65-95 | Only a string level is parsed, case-insensitively, with INFO when it names no level. A level passed as a member stays INFO. Expiry is `remove_after` hours after construction. `added_at` defaults to the construction instant. The other fields are copied. |
| Settings.DefaultMessageItem | custom_components/message_log/message_log_settings.py:65-74 | With only a text, the item keeps that text, is INFO, has the badge icon, does not notify, has an empty source, is stamped now, and expires 24 hours on. |
| Settings.NewSettings | custom_components/message_log/message_log_settings.py:149-161 | New settings have an empty list, INFO as highest level, and the ALL filter. The order is by level exactly when the flag is set. The settings are consistent. |
| Settings.HighestLevel | custom_components/message_log/message_log_settings.py:164-173 | The highest level bounds every item's level and is some item's level, or INFO when there are no items. |
| Settings.SetHighestMessageLevel | custom_components/message_log/message_log_settings.py:164-173 | The scan that stops early at ERROR finds the same level as the full maximum. |
| Store.NewApi | custom_components/message_log/component_api.py:121-141 | A new component has an empty consistent store, the ALL filter and the cursor at -1. It orders by level unless the option is explicitly false. |
| Store.FireEvents | custom_components/message_log/component_api.py:243-273 | An add fires the generic event, then the level-specific event with the lower-case level name appended, then the notify event only when asked. Every payload carries the text and the capitalised level name. |
| Store.HighestAfterPrepend | custom_components/message_log/component_api.py:234-236 | Putting an item in front makes the highest level the maximum of the old highest and the item's level. |
| Store.AddMessage | custom_components/message_log/component_api.py:234-240 | The item goes in front and the older items follow unchanged. The highest level is the old one raised to the item's level, and the store stays consistent. The events are those of `FireEvents`, and the preferences are untouched. |
| Store.ServiceItem | custom_components/message_log/component_api.py:211-231 | A missing `remove_after` takes the option's hours. A missing or empty source becomes the service source tag. A missing icon, level or time gets the constructor's default, and a missing `notify` means no notification. A given icon, `notify`, time and expiry are passed through. A given level string is parsed case-insensitively, with INFO when it names no level. |
| Store.AddMessageService | custom_components/message_log/component_api.py:211-231 | The item built from the call goes in front of the list, and the older items follow unchanged. The store stays consistent and the preferences are untouched. The highest level rises to the item's level. The events are the add's generic, level-specific and notify events for that item, carrying the call's text, and there are three of them exactly when the call asks to notify. |
| Store.AddedItemFilteredOut | custom_components/message_log/component_api.py:199-231 | When an add call names a level, the comprehension that keeps the items of every other level keeps the same list after the add as before it. |
| Store.RemovingLevelUndoesAdd | custom_components/message_log/component_api.py:193-231 | Removing the level an add call named leaves the same list as removing that level without the add. |
| Store.DeleteReverse | custom_components/message_log/component_api.py:200-202 | Deleting from the back while walking indices downward leaves exactly the filtered list. It reports a deletion exactly when some element is dropped. |
| Store.RemoveMessagesService | custom_components/message_log/component_api.py:193-208 | Without a level, the list is cleared and the highest level becomes INFO. An unknown name raises KeyError. Otherwise exactly the items of that level go. Every copy of every other item stays, the rest keep their order, and the store stays consistent. The result is the comprehension that `Store.DeleteReverse` proves the deletion loop computes. |
| Store.RemoveOutdated | custom_components/message_log/component_api.py:320-331 | Exactly the items whose expiry lies before now go. Every copy of every current item stays, in its order, as the comprehension that `Store.DeleteReverse` proves the deletion loop computes. It saves exactly when something was removed, and then the list is shorter and consistent. When nothing was removed, nothing changes. |
| Store.RemoveOutdatedIdempotent | custom_components/message_log/component_api.py:320-331 | A second sweep at the same instant removes nothing and does not save, and a sweep keeps the store consistent. |
| Store.OrderByService | custom_components/message_log/component_api.py:276-292 | With no name, the order cycles to the other order and the cursor stays. A name succeeds exactly when it names an order. On success the cursor restarts at -1 only when more than one message is stored. Nothing else changes. |
| Store.ShowService | custom_components/message_log/component_api.py:295-308 | With no name, the filter cycles. With a name, success means the name parses as an order. The order is then set to it, and the filter, the messages, the highest level and the cursor are unchanged. |
| Store.ShowServiceRejectsShowNames | custom_components/message_log/component_api.py:303-305 | Every filter name, in upper or lower case, raises KeyError in the show service. |
| Sorting.ShownIffSameLevel | custom_components/message_log/component_api.py:459-463 | Comparing names decides the same as comparing levels: an item is shown exactly when the filter is ALL or is the item's own level. |
| Sorting.CreateSortedMessageList | custom_components/message_log/component_api.py:445-474 | The view is a permutation of the shown items and has the same items at each level in store order. By level it is sorted highest first. By time added it is a subsequence of the store, and the store itself when the filter is ALL. |
| Sorting.SortedMessageListUnique | custom_components/message_log/component_api.py:453-465 | Any list that is sorted highest first and holds each level's shown items in store order is exactly the by-level view. |
| Sorting.SortedListLength | custom_components/message_log/component_api.py:445-474 | The view holds as many items as the filter shows, the whole store under ALL, and exactly the shown items. |
| Views.UpdateScrollMessagePos | custom_components/message_log/component_api.py:373-385 | Over a view of at most one item the cursor is 0. Otherwise it steps to the next position while that lies below both the view's length and the scroll count, and wraps to 0 once it would reach either. From -1 or a position in range it stays below both. |
| Views.RotationCycles | custom_components/message_log/component_api.py:373-385 | From -1, the j-th refresh shows position j-1 for j up to min(length, count). From any start the positions repeat with that period. |
| Views.RotationReturns | custom_components/message_log/component_api.py:373-385 | From a position in range, min(length, count) refreshes return the cursor to it. |
| Views.LatestAndScroll | custom_components/message_log/component_api.py:348-370 | An empty store gives only an INFO-coloured header and leaves the cursor alone. Otherwise the header has the highest level's colour, then comes the newest item. The scroll line and the cursor step come only when the unfiltered view has more than one item, and the scroll line shows the view's item at the new cursor. Item lines come from `Views.ItemLine`, and the header colour from `Settings.HighestColor`. |
| Views.ItemLines | custom_components/message_log/component_api.py:395-405 | The list loop emits the first items of the view, stopping once the running position passes the count. |
| Views.MessageListView | custom_components/message_log/component_api.py:388-407 | An empty view gives only an INFO-coloured header. Otherwise the header has the highest level's colour, followed by the first min(view length, count) items of the view in order. |
| Views.GetMessage | custom_components/message_log/component_api.py:477-483 | An index within the list gives that item's text. An index at or past the end gives "". A negative index counts from the end, and raises IndexError below minus the list's length. |
| Views.AccessorsAfterAdd | custom_components/message_log/component_api.py:486-534 | After an add, the last-message accessors describe the added item: `Views.MessageLast`, `Views.MessageLastIcon`, `Views.MessageLevelLast`, `Views.MessageSourceLast` and `Views.MessageLevelColorLast` give its text, icon, level, source and colour. `Views.HighestMessageLevelName` accounts for the item. On an empty store each accessor gives its placeholder. |
| Views.MessageScroll | custom_components/message_log/component_api.py:537-545 | With at most one message the sensor is "". Otherwise it is the store's item at the cursor, counting from the end for a negative cursor, so -1 gives the oldest item. It raises exactly when the cursor is outside Python's index range. |
| Views.MessageScrollIcon | custom_components/message_log/component_api.py:547-554 | With at most one message the icon is the off icon. Otherwise it is the icon of the store's item at the cursor, counting from the end for a negative cursor. It raises under the same condition. |
| Views.Refresh | custom_components/message_log/component_api.py:311-345 | A refresh first sweeps out outdated items. The stored settings and the save flag are those of the sweep. It raises exactly when the latest-and-scroll view does. That view and the new cursor are built over the unfiltered sorted view of the swept store. The message list is built over the filtered sorted view with the configured count. |
| Views.RefreshInvariant | custom_components/message_log/component_api.py:311-385 | From a consistent store with the cursor at -1 or above and a scroll count of at least one, a refresh never raises. It keeps the store consistent and the cursor at -1 or above, and leaves no outdated item. With more than one message it puts the cursor inside both the store and the scroll count, so the scroll sensor cannot raise. Otherwise it leaves the cursor alone. |
| Views.RefreshWithFormOptions | custom_components/message_log/config_flow.py:94-115 | With options inside the form's bounds, a refresh of a store that keeps the invariant never raises. The latest-and-scroll view then has at most three lines, and the message list at most a header and 100 items. |
| Views.OperationsKeepInvariant | custom_components/message_log/component_api.py:193-308 | Adding, removing, and the order and filter services all keep the store consistent and the cursor at -1 or above. |
| Views.ScrollLineMayRepeatLatest | custom_components/message_log/component_api.py:352-369 | Ordered by time added, when the cursor starts or wraps, the scroll line shows the newest message again, directly under the latest-message line. |
| Views.ScrollSensorAgreesByAddedAt | custom_components/message_log/component_api.py:537-545 | Ordered by time added, the scroll sensor and the markdown's scroll line show the same item after a refresh. |
| Sorting.SortedByLevelSwaps | custom_components/message_log/component_api.py:453-465 | Sorting by level puts an ERROR item ahead of an INFO item that was above it. |
| Views.MessageScrollIgnoresSortOrder | custom_components/message_log/component_api.py:537-545 | Ordered by level, with an INFO item above an ERROR item, after the first refresh the markdown's scroll line shows the ERROR item while the scroll sensor shows the INFO item. |
| DeviceTrigger.LevelSuffix | custom_components/message_log/device_trigger.py:22-25 | The literal suffixes of the trigger types are exactly the lower-cased level names the component appends when it fires. |
| DeviceTrigger.GetTriggers | custom_components/message_log/device_trigger.py:35-62 | There are six triggers: notify, generic, then one per level in enum order. Each has platform "device", the given device and the integration's domain. |
| DeviceTrigger.ListedTypes | custom_components/message_log/device_trigger.py:48-56 | The listed types, in order, are the notify type, the generic type, and the generic type with `_info`, `_attention`, `_warning` and `_error` appended. |
| DeviceTrigger.TriggersAreTheTypes | custom_components/message_log/device_trigger.py:19-32 | Every listed trigger passes the schema, and every accepted type is listed. |
| DeviceTrigger.LevelTriggerAttached | custom_components/message_log/device_trigger.py:73-78 | `DeviceTrigger.AttachedEventType`, the event an attached trigger listens to, is the level-specific event that an add at that level fires, for each level's trigger. |
| DeviceTrigger.FiredEventsHaveTriggers | custom_components/message_log/component_api.py:243-273 | Every event an add fires is the event that some listed trigger of the device, once attached, listens to. |
| DeviceTrigger.FiredEventsAreTriggerTypes | custom_components/message_log/component_api.py:246-268 | Every fired event type is the domain, a dot, and an accepted trigger type. |
| DeviceTrigger.EveryTriggerCanFire | custom_components/message_log/device_trigger.py:65-82 | For every listed trigger, some add fires the event it listens to. |
| Translate.Flatten | custom_components/message_log/translate.py:71-85 | The flat table holds only leaves, and only under keys that pass the filter. |
| Translate.FlattenSound | custom_components/message_log/translate.py:76-84 | Every flat key is the dot-joined path of keys to a leaf of the input that holds the stored value. |
| Translate.FlattenComplete | custom_components/message_log/translate.py:76-84 | Every leaf whose dotted key passes the filter is stored, and with no filter every leaf is. Objects are always descended into. |
| Translate.FlattenKeys | custom_components/message_log/translate.py:71-85 | The flat keys are exactly the dotted leaf paths that pass the filter. |
| Translate.Lookup | custom_components/message_log/translate.py:59-60 | A present key gives its stored value and an absent key gives the default. |
| Translate.LookupAfterFlatten | custom_components/message_log/translate.py:59-60 | In an unfiltered table, a leaf's dotted path finds a leaf stored under that key. A key that is no leaf's path gives the default. |
| Translate.CheckLanguageLoaded | custom_components/message_log/translate.py:87-111 | The cached language becomes the requested one, even when no file exists. The same language changes nothing. A new language loads its own file, else the English file, else keeps the old table. The table stays leaf-only. |
| Translate.CheckLanguageLoadedIdempotent | custom_components/message_log/translate.py:87-88 | A second check for the same language changes nothing, even with another filter or other files. |
| Translate.LocalizedStr | custom_components/message_log/translate.py:39-60 | An empty filter falls back to the instance's own. The cache is checked, and then the key is looked up with the default. |

## Left out

- Relative-time phrases (`relative_time`, component_api.py:174-190) come from a
  foreign date-formatting library. The views carry the instant the phrase would
  be computed from instead.
- The `added_at` string in the add service is parsed with `strptime` and
  converted from local time. The model takes the instant as already converted.
- `remove_after` may be a fractional number of hours. The model takes whole
  hours.
- `MessageItem.__init__` reads the clock twice, once for the expiry instant
  (message_log_settings.py:87) and once for a missing `added_at` (:91). The
  model uses one `now` for both.
- The expiry sweep reads the clock once per item. The model uses one `now` for
  the whole sweep.
- `str.upper`, `str.lower` and `str.capitalize` are modelled on ASCII only.
  Unicode case mappings such as dotless i are not modelled.
- `EnumExt.succ` is defined in a module that is not part of this model. It is
  taken to be "next declared member, wrapping".
- The level comparison `>` on `MessageLevel` comes from the same module. It is
  taken to compare values.
- Persistence (`async_write_settings`), the update coordinator, the bus,
  service registration and the entity classes are host plumbing. Saves appear
  only as a flag.
- The settings markdown view (`async_create_markdown_message_settings`) is
  left out.
- `message_list_sorted` is a member variable cleared after every refresh. The
  model passes each sorted view explicitly.
- Every refresh and every service is modelled as one atomic step. The code can
  interleave them. A refresh awaits inside `async_update_markdown`
  (component_api.py:334-345), for instance on the executor job of
  `relative_time` (:182-183). Meanwhile a service's `coordinator.async_refresh()`
  (:208, :240, :292, :308) or the options listener's `async_update()` can start
  a second refresh. That refresh can clear or refill the shared
  `message_list_sorted` at the await before the scroll check (:357) or at the
  one inside the list loop (:403). That drops the scroll line or cuts the list
  short. This interleaving
  is not modelled.
- Translation file reading, the owner's language lookup and the `Translations`
  loader are I/O. Files are given as a map from file name to parsed content,
  and the language as a resolved string.
- JSON values other than objects are modelled as string leaves.
- Translate.LocalizedStr: the branch with format arguments (`str.format(**kvargs)`)
  is not modelled.
- `MessageItemAttr` is an attribute-export record used only by the entities.
- The options form (config_flow.py:94-115) is schema only. Its bounds appear as
  `Const.OptionsInRange`, the precondition of `Views.RefreshWithFormOptions`.
  `Views.RefreshInvariant` needs only a scroll count of at least one.

=== FILE: builtins.dfy ===
/** Small models of the Python built-ins the message log relies on:
    exceptions as a Result type, ASCII string case mapping, `str.find(..) == 0`,
    list comprehensions with a condition, and list indexing with negative indices. */
module Builtins {

  /** An optional value: a missing dictionary key or a `None` argument. */
  datatype Option<T> = None | Some(value: T) {
    function GetOr(default: T): T {
      match this
      case Some(v) => v
      case None => default
    }
  }

  /** The Python exceptions the modelled code can raise. */
  datatype PyError =
    | KeyError(key: string)     // `Enum[name]` with an unknown member name
    | IndexError(index: int)    // `list[i]` outside `-len(list) <= i < len(list)`

  /** Either a value or the exception a call raises. */
  datatype Result<T> = Ok(value: T) | Raise(error: PyError)

  // ---------------------------------------------------------------------------
  // Strings (ASCII case mapping only)
  // ---------------------------------------------------------------------------

  predicate IsLowerChar(c: char) { 'a' <= c <= 'z' }

  predicate IsUpperChar(c: char) { 'A' <= c <= 'Z' }

  function UpperChar(c: char): (u: char)
    ensures !IsLowerChar(u)
    ensures IsLowerChar(c) ==> IsUpperChar(u) && u as int + 32 == c as int
    ensures !IsLowerChar(c) ==> u == c
  {
    if IsLowerChar(c) then (c as int - 32) as char else c
  }

  function LowerChar(c: char): (l: char)
    ensures !IsUpperChar(l)
    ensures IsUpperChar(c) ==> IsLowerChar(l) && l as int == c as int + 32
    ensures !IsUpperChar(c) ==> l == c
  {
    if IsUpperChar(c) then (c as int + 32) as char else c
  }

  /** `s.upper()` */
  function Upper(s: string): (r: string)
    ensures |r| == |s|
    ensures forall i :: 0 <= i < |s| ==> r[i] == UpperChar(s[i])
  {
    if s == [] then [] else [UpperChar(s[0])] + Upper(s[1..])
  }

  /** `s.lower()` */
  function Lower(s: string): (r: string)
    ensures |r| == |s|
    ensures forall i :: 0 <= i < |s| ==> r[i] == LowerChar(s[i])
  {
    if s == [] then [] else [LowerChar(s[0])] + Lower(s[1..])
  }

  /** Lower-casing a word character by character. */
  lemma LowerIsPerChar(s: string, t: string)
    requires |s| == |t| && forall i :: 0 <= i < |s| ==> LowerChar(s[i]) == t[i]
    ensures Lower(s) == t
  {
  }

  /** Regrouping a four-part concatenation. */
  lemma Regroup(a: string, b: string, c: string, d: string)
    ensures ((a + b) + c) + d == a + ((b + c) + d)
  {
  }

  /** `s.capitalize()`: first character upper case, the rest lower case. */
  function Capitalize(s: string): (r: string)
    ensures |r| == |s|
    ensures 0 < |s| ==> r[0] == UpperChar(s[0])
    ensures forall i :: 0 < i < |s| ==> r[i] == LowerChar(s[i])
  {
    if s == [] then [] else [UpperChar(s[0])] + Lower(s[1..])
  }

  /** Two characters that are the same letter up to ASCII case, or the same character. */
  predicate SameIgnoringCase(a: char, b: char) {
    a == b || (IsLowerChar(a) && a as int == b as int + 32) || (IsUpperChar(a) && a as int + 32 == b as int)
  }

  /** Case-insensitive match against a word that has no lower-case letters:
      `s.upper() == word` holds exactly when `s` spells `word` in any mix of cases. */
  lemma {:induction false} UpperMatchesIgnoringCase(s: string, word: string)
    requires forall i :: 0 <= i < |word| ==> !IsLowerChar(word[i])
    ensures Upper(s) == word <==>
              |s| == |word| && forall i :: 0 <= i < |s| ==> SameIgnoringCase(s[i], word[i])
  {
    if Upper(s) == word {
      forall i | 0 <= i < |s| ensures SameIgnoringCase(s[i], word[i]) {
        assert word[i] == UpperChar(s[i]);
      }
    }
    if |s| == |word| && forall i :: 0 <= i < |s| ==> SameIgnoringCase(s[i], word[i]) {
      forall i | 0 <= i < |s| ensures Upper(s)[i] == word[i] {
        assert SameIgnoringCase(s[i], word[i]);
        assert !IsLowerChar(word[i]);
      }
    }
  }

  /** Upper-casing ignores an earlier lower-casing. */
  lemma UpperOfLower(s: string)
    ensures Upper(Lower(s)) == Upper(s)
  {
    forall i | 0 <= i < |s| ensures Upper(Lower(s))[i] == Upper(s)[i] {
      assert Lower(s)[i] == LowerChar(s[i]);
    }
  }

  /** `s.find(sub) == 0`: the first occurrence of `sub` in `s` is at index 0. */
  predicate StartsWith(s: string, sub: string) {
    |sub| <= |s| && s[..|sub|] == sub
  }

  // ---------------------------------------------------------------------------
  // Lists
  // ---------------------------------------------------------------------------

  /** `[x for x in s if p(x)]` */
  function Filter<T>(s: seq<T>, p: T -> bool): (r: seq<T>)
    ensures |r| <= |s|
    ensures forall i :: 0 <= i < |r| ==> p(r[i])
    ensures forall i :: 0 <= i < |r| ==> r[i] in s
  {
    if s == [] then []
    else
      var rest := Filter(s[..|s| - 1], p);
      assert s == s[..|s| - 1] + [s[|s| - 1]];
      if p(s[|s| - 1]) then rest + [s[|s| - 1]] else rest
  }

  /** An element survives the filter exactly when it occurs in the list and passes. */
  lemma {:induction false} FilterMembers<T>(s: seq<T>, p: T -> bool)
    ensures forall x :: x in Filter(s, p) <==> x in s && p(x)
  {
    if s != [] {
      var s' := s[..|s| - 1];
      FilterMembers(s', p);
      forall x | x in s && p(x) ensures x in Filter(s, p) {
        if x != s[|s| - 1] {
          var i :| 0 <= i < |s| && s[i] == x;
          assert s'[i] == x;
        }
      }
    }
  }

  /** Filtering a list with a first element. */
  lemma FilterCons<T>(x: T, t: seq<T>, p: T -> bool)
    ensures Filter([x] + t, p) == (if p(x) then [x] else []) + Filter(t, p)
  {
    FilterConcat([x], t, p);
    assert Filter([x], p) == Filter([], p) + (if p(x) then [x] else []);
  }

  lemma FilterSingleton<T>(x: T, p: T -> bool)
    ensures Filter([x], p) == if p(x) then [x] else []
  {
    assert [x][..0] == [];
  }

  /** Filtering a concatenation filters each part and keeps them in order. */
  lemma {:induction false} FilterConcat<T>(a: seq<T>, b: seq<T>, p: T -> bool)
    ensures Filter(a + b, p) == Filter(a, p) + Filter(b, p)
  {
    if b == [] {
      assert a + b == a;
    } else {
      var b' := b[..|b| - 1];
      assert (a + b)[..|a + b| - 1] == a + b';
      FilterConcat(a, b', p);
    }
  }

  /** Filtering with a predicate that holds everywhere changes nothing. */
  lemma {:induction false} FilterKeepsAll<T>(s: seq<T>, p: T -> bool)
    requires forall i :: 0 <= i < |s| ==> p(s[i])
    ensures Filter(s, p) == s
  {
    if s != [] {
      FilterKeepsAll(s[..|s| - 1], p);
      assert s == s[..|s| - 1] + [s[|s| - 1]];
    }
  }

  /** Filtering that drops at least one element makes the list strictly shorter. */
  lemma {:induction false} FilterDropShortens<T>(s: seq<T>, p: T -> bool)
    requires exists i :: 0 <= i < |s| && !p(s[i])
    ensures |Filter(s, p)| < |s|
  {
    var i :| 0 <= i < |s| && !p(s[i]);
    var s' := s[..|s| - 1];
    if i < |s| - 1 {
      assert s'[i] == s[i];
      FilterDropShortens(s', p);
    }
  }

  /** Two predicates that agree everywhere filter alike. */
  lemma {:induction false} FilterExt<T>(s: seq<T>, p: T -> bool, q: T -> bool)
    requires forall x :: p(x) == q(x)
    ensures Filter(s, p) == Filter(s, q)
  {
    if s != [] {
      FilterExt(s[..|s| - 1], p, q);
    }
  }

  /** Filtering twice with the conjunction's parts is filtering once with the conjunction. */
  lemma {:induction false} FilterFilter<T>(s: seq<T>, p: T -> bool, q: T -> bool, pq: T -> bool)
    requires forall x :: pq(x) == (p(x) && q(x))
    ensures Filter(Filter(s, p), q) == Filter(s, pq)
  {
    if s != [] {
      var s' := s[..|s| - 1];
      FilterFilter(s', p, q, pq);
      var last := s[|s| - 1];
      if p(last) {
        FilterConcat(Filter(s', p), [last], q);
      }
    }
  }

  /** Filtering is idempotent. */
  lemma FilterIdempotent<T>(s: seq<T>, p: T -> bool)
    ensures Filter(Filter(s, p), p) == Filter(s, p)
  {
    FilterKeepsAll(Filter(s, p), p);
  }

  /** A filter keeps every copy of a passing element and no copy of a failing one. */
  lemma {:induction false} FilterCount<T>(s: seq<T>, p: T -> bool, x: T)
    ensures multiset(Filter(s, p))[x] == if p(x) then multiset(s)[x] else 0
  {
    if s != [] {
      var s' := s[..|s| - 1];
      FilterCount(s', p, x);
      assert s == s' + [s[|s| - 1]];
    }
  }

  /** `FilterCount` for every element at once. */
  lemma FilterCounts<T>(s: seq<T>, p: T -> bool)
    ensures forall x :: multiset(Filter(s, p))[x] == if p(x) then multiset(s)[x] else 0
  {
    forall x ensures multiset(Filter(s, p))[x] == if p(x) then multiset(s)[x] else 0 {
      FilterCount(s, p, x);
    }
  }

  /** Filtering with a predicate that holds nowhere yields nothing. */
  lemma FilterDropsAll<T>(s: seq<T>, p: T -> bool)
    requires forall i :: 0 <= i < |s| ==> !p(s[i])
    ensures Filter(s, p) == []
  {
  }

  /** `r` is `s` with some elements deleted, the rest kept in their order. */
  ghost predicate Subsequence<T>(r: seq<T>, s: seq<T>)
    decreases |s|
  {
    if r == [] then true
    else if s == [] then false
    else (r[|r| - 1] == s[|s| - 1] && Subsequence(r[..|r| - 1], s[..|s| - 1]))
         || Subsequence(r, s[..|s| - 1])
  }

  /** A filter deletes elements and keeps the survivors in their order. */
  lemma {:induction false} FilterIsSubsequence<T>(s: seq<T>, p: T -> bool)
    ensures Subsequence(Filter(s, p), s)
  {
    if s != [] {
      var s' := s[..|s| - 1];
      FilterIsSubsequence(s', p);
      var r := Filter(s, p);
      if p(s[|s| - 1]) {
        assert r[..|r| - 1] == Filter(s', p);
      } else {
        assert r == Filter(s', p);
        if r != [] {
          assert !Subsequence(r, s') ==> false;
        }
      }
    }
  }

  /** `s[i]` with Python's negative indices: `-1` is the last element, and an index
      outside `-len(s) <= i < len(s)` raises IndexError. */
  function PyIndex<T>(s: seq<T>, i: int): (r: Result<T>)
    ensures r.Ok? <==> -|s| <= i < |s|
    ensures 0 <= i < |s| ==> r == Ok(s[i])
    ensures -|s| <= i < 0 ==> r == Ok(s[|s| + i])
  {
    if 0 <= i < |s| then Ok(s[i])
    else if -|s| <= i < 0 then Ok(s[|s| + i])
    else Raise(IndexError(i))
  }
}

=== FILE: const.dfy ===
/** Integration-wide names and the options entry with its defaults. */
module Const {
  import opened Builtins

  /** `DOMAIN` */
  const Domain: string := "message_log"

  /** Event and source names the component uses but whose values are defined
      outside this model (`EVENT_NEW_LOG_ENTRY`, `EVENT_NEW_NOTIFY_LOG_ENTRY`,
      `SOURCE_SERVICE`); they are treated as opaque strings. */
  datatype HostNames = HostNames(
    newLogEntry: string,
    newNotifyLogEntry: string,
    sourceService: string)

  /** The integration's options, each possibly unset. */
  datatype Options = Options(
    removeAfterHours: Option<int>,
    scrollThroughCount: Option<int>,
    markdownListCount: Option<int>,
    orderByMessageLevel: Option<bool>)

  /** `options.get(CONF_REMOVE_MESSAGE_AFTER_HOURS, 24)` */
  function RemoveAfterHours(o: Options): int { o.removeAfterHours.GetOr(24) }

  /** `options.get(CONF_SCROLL_THROUGH_LAST_MESSAGES_COUNT, 5)` */
  function ScrollThroughCount(o: Options): int { o.scrollThroughCount.GetOr(5) }

  /** `options.get(CONF_MARKDOWN_MESSAGE_LIST_COUNT, 10)` */
  function MarkdownListCount(o: Options): int { o.markdownListCount.GetOr(10) }

  /** `options.get(CONF_ORDER_BY_MESSAGE_LEVEL, True)` */
  function OrderByMessageLevel(o: Options): bool { o.orderByMessageLevel.GetOr(true) }

  /** The bounds the options form enforces: 1 to 696 messages to scroll
      through, and a list of 2 to 100 lines. */
  predicate OptionsInRange(o: Options) {
    1 <= ScrollThroughCount(o) <= 696 && 2 <= MarkdownListCount(o) <= 100
  }
}

=== FILE: device_trigger.dfy ===
/** Device triggers: the six trigger types a message-log device offers, the
    trigger list the automation editor is given, and the event a trigger
    listens to once attached. */
module DeviceTrigger {
  import opened Builtins
  import opened Levels
  import opened Settings
  import opened Const
  import opened Store

  /** A device trigger configuration. */
  datatype Trigger = Trigger(platform: string, deviceId: string, domain: string, triggerType: string)

  /** The lower-case level name a level-specific trigger type ends with. */
  function LevelSuffix(lv: MessageLevel): (r: string)
    ensures r == Lower(Name(lv))
  {
    match lv
    case Info => LowerIsPerChar("INFO", "info"); "info"
    case Attention => LowerIsPerChar("ATTENTION", "attention"); "attention"
    case Warning => LowerIsPerChar("WARNING", "warning"); "warning"
    case Error => LowerIsPerChar("ERROR", "error"); "error"
  }

  /** `TRIGGER_TYPES`: the generic and notify entry events and one per level. */
  function TriggerTypes(names: HostNames): set<string> {
    {names.newLogEntry, names.newNotifyLogEntry,
     names.newLogEntry + "_" + "info", names.newLogEntry + "_" + "warning",
     names.newLogEntry + "_" + "error", names.newLogEntry + "_" + "attention"}
  }

  /** `TRIGGER_SCHEMA`: a configuration is accepted only with a known type. */
  predicate ValidTrigger(t: Trigger, names: HostNames) {
    t.triggerType in TriggerTypes(names)
  }

  /** The type of the trigger for one level's entry event. */
  function LevelTriggerType(lv: MessageLevel, names: HostNames): string {
    names.newLogEntry + "_" + LevelSuffix(lv)
  }

  /** `async_get_triggers`: the notify trigger, the generic trigger, then one per
      level in declaration order, each for this device in this domain. */
  function GetTriggers(deviceId: string, names: HostNames): (r: seq<Trigger>)
    ensures |r| == 2 + |Declared|
    ensures forall i :: 0 <= i < |r| ==>
              r[i].platform == "device" && r[i].deviceId == deviceId && r[i].domain == Domain
    ensures r[0].triggerType == names.newNotifyLogEntry && r[1].triggerType == names.newLogEntry
    ensures forall k :: 0 <= k < |Declared| ==> r[k + 2].triggerType == LevelTriggerType(Declared[k], names)
  {
    var base := Trigger("device", deviceId, Domain, "");
    [base.(triggerType := names.newNotifyLogEntry), base.(triggerType := names.newLogEntry)]
    + seq(|Declared|, k requires 0 <= k < |Declared| => base.(triggerType := LevelTriggerType(Declared[k], names)))
  }

  /** `async_attach_trigger`: the event type the attached listener waits for. */
  function AttachedEventType(t: Trigger): string {
    t.domain + "." + t.triggerType
  }

  /** The types listed are the accepted types, in listing order. */
  lemma ListedTypes(deviceId: string, names: HostNames)
    ensures var r := GetTriggers(deviceId, names);
            && r[0].triggerType == names.newNotifyLogEntry
            && r[1].triggerType == names.newLogEntry
            && r[2].triggerType == names.newLogEntry + "_" + "info"
            && r[3].triggerType == names.newLogEntry + "_" + "attention"
            && r[4].triggerType == names.newLogEntry + "_" + "warning"
            && r[5].triggerType == names.newLogEntry + "_" + "error"
  {
    var r := GetTriggers(deviceId, names);
    assert r[0 + 2].triggerType == LevelTriggerType(Declared[0], names);
    assert r[1 + 2].triggerType == LevelTriggerType(Declared[1], names);
    assert r[2 + 2].triggerType == LevelTriggerType(Declared[2], names);
    assert r[3 + 2].triggerType == LevelTriggerType(Declared[3], names);
  }

  /** The triggers offered are exactly the accepted types: every listed trigger
      passes the schema, and every accepted type is listed. */
  lemma TriggersAreTheTypes(deviceId: string, names: HostNames)
    ensures forall i :: 0 <= i < |GetTriggers(deviceId, names)| ==> ValidTrigger(GetTriggers(deviceId, names)[i], names)
    ensures forall ty :: ty in TriggerTypes(names) <==>
              exists i :: 0 <= i < |GetTriggers(deviceId, names)| && GetTriggers(deviceId, names)[i].triggerType == ty
  {
    ListedTypes(deviceId, names);
  }

  /** The listener attached for a level's trigger waits for the event an add of
      an item at that level fires second. */
  lemma LevelTriggerAttached(item: MessageItem, deviceId: string, names: HostNames, k: int)
    requires 0 <= k < |Declared| && item.level == Declared[k]
    ensures FireEvents(item, names)[1].eventType == AttachedEventType(GetTriggers(deviceId, names)[k + 2])
  {
    var t := GetTriggers(deviceId, names)[k + 2];
    var suffix := LevelSuffix(item.level);
    assert t.triggerType == (names.newLogEntry + "_") + suffix;
    Regroup(Domain + ".", names.newLogEntry, "_", suffix);
  }

  /** The position of a level in declaration order. */
  function LevelIndex(lv: MessageLevel): (k: int)
    ensures 0 <= k < |Declared| && Declared[k] == lv
  {
    match lv
    case Info => 0
    case Attention => 1
    case Warning => 2
    case Error => 3
  }

  /** Every event an add fires is one a listed trigger of the device listens to. */
  lemma FiredEventsHaveTriggers(item: MessageItem, deviceId: string, names: HostNames)
    ensures forall e :: e in FireEvents(item, names) ==>
              exists i :: 0 <= i < |GetTriggers(deviceId, names)| && AttachedEventType(GetTriggers(deviceId, names)[i]) == e.eventType
  {
    var r := GetTriggers(deviceId, names);
    var events := FireEvents(item, names);
    var k := LevelIndex(item.level);
    LevelTriggerAttached(item, deviceId, names, k);
    assert AttachedEventType(r[1]) == events[0].eventType;
    if item.notify {
      assert AttachedEventType(r[0]) == events[2].eventType;
    }
  }

  /** Every event an add fires is the domain, a dot, and an accepted trigger type. */
  lemma FiredEventsAreTriggerTypes(item: MessageItem, names: HostNames)
    ensures forall e :: e in FireEvents(item, names) ==>
              exists ty :: ty in TriggerTypes(names) && e.eventType == Domain + "." + ty
  {
    var r := GetTriggers("", names);
    FiredEventsHaveTriggers(item, "", names);
    TriggersAreTheTypes("", names);
    forall e | e in FireEvents(item, names)
      ensures exists ty :: ty in TriggerTypes(names) && e.eventType == Domain + "." + ty
    {
      var i :| 0 <= i < |r| && AttachedEventType(r[i]) == e.eventType;
      assert r[i].triggerType in TriggerTypes(names);
    }
  }

  /** Every listed trigger can fire: for each, some item's add fires its event. */
  lemma EveryTriggerCanFire(deviceId: string, names: HostNames, i: int)
    requires 0 <= i < |GetTriggers(deviceId, names)|
    ensures exists item: MessageItem, j ::
              0 <= j < |FireEvents(item, names)| &&
              FireEvents(item, names)[j].eventType == AttachedEventType(GetTriggers(deviceId, names)[i])
  {
    var r := GetTriggers(deviceId, names);
    var lv := if i < 2 then Info else Declared[i - 2];
    var item := MessageItem("", lv, DefaultIcon, 0, true, 0, "");
    var events := FireEvents(item, names);
    if i == 0 {
      assert events[2].eventType == AttachedEventType(r[i]);
    } else if i == 1 {
      assert events[0].eventType == AttachedEventType(r[i]);
    } else {
      LevelTriggerAttached(item, deviceId, names, i - 2);
      assert events[1].eventType == AttachedEventType(r[i]);
    }
  }
}

=== FILE: levels.dfy ===
/** The three enumerations of the settings file: message severities (with their
    numeric values and display colours), the list filter ("show") and the list order. */
module Levels {
  import opened Builtins

  // ---------------------------------------------------------------------------
  // MessageLevel
  // ---------------------------------------------------------------------------

  datatype MessageLevel = Info | Attention | Warning | Error

  /** The enum value of each level. */
  function Value(lv: MessageLevel): int {
    match lv
    case Info => 10
    case Attention => 20
    case Warning => 30
    case Error => 40
  }

  /** Enum comparison `a < b`, by value. */
  predicate Below(a: MessageLevel, b: MessageLevel) {
    Value(a) < Value(b)
  }

  function Max(a: MessageLevel, b: MessageLevel): (m: MessageLevel)
    ensures m == a || m == b
    ensures !Below(m, a) && !Below(m, b)
  {
    if Below(a, b) then b else a
  }

  /** The members in declaration order, as iterating over the enum yields them. */
  const Declared: seq<MessageLevel> := [Info, Attention, Warning, Error]

  /** `MessageLevel.name` */
  function Name(lv: MessageLevel): string {
    match lv
    case Info => "INFO"
    case Attention => "ATTENTION"
    case Warning => "WARNING"
    case Error => "ERROR"
  }

  /** `MessageLevel.color` */
  function Color(lv: MessageLevel): string {
    match lv
    case Info => "limegreen"
    case Attention => "deepskyblue"
    case Warning => "orange"
    case Error => "orangered"
  }

  /** The four levels are strictly ordered INFO < ATTENTION < WARNING < ERROR with
      values 10, 20, 30, 40, equal values mean equal levels, and `Declared` lists
      every level once, in ascending order. */
  lemma LevelsTotallyOrdered()
    ensures Value(Info) == 10 && Value(Attention) == 20 && Value(Warning) == 30 && Value(Error) == 40
    ensures Below(Info, Attention) && Below(Attention, Warning) && Below(Warning, Error)
    ensures forall a: MessageLevel, b: MessageLevel :: Value(a) == Value(b) ==> a == b
    ensures forall a: MessageLevel, b: MessageLevel :: a == b || Below(a, b) || Below(b, a)
    ensures forall a: MessageLevel :: !Below(Error, a) && !Below(a, Info)
    ensures forall lv: MessageLevel :: lv in Declared
    ensures forall i, j :: 0 <= i < j < |Declared| ==> Below(Declared[i], Declared[j])
  {
    forall lv: MessageLevel ensures lv in Declared {
      match lv
      case Info => assert Declared[0] == lv;
      case Attention => assert Declared[1] == lv;
      case Warning => assert Declared[2] == lv;
      case Error => assert Declared[3] == lv;
    }
  }

  /** Every level has a colour, and no two levels share one. */
  lemma ColorsDistinct()
    ensures forall a: MessageLevel, b: MessageLevel :: Color(a) == Color(b) ==> a == b
    ensures forall a: MessageLevel :: |Color(a)| > 0
  {
  }

  /** `MessageLevel[s.upper()]`: the member whose name is `s` in upper case, or
      None where Python raises KeyError. */
  function ParseLevel(s: string): (r: Option<MessageLevel>)
    ensures r.Some? ==> Name(r.value) == Upper(s)
    ensures r.None? ==> forall lv: MessageLevel :: Name(lv) != Upper(s)
  {
    var u := Upper(s);
    if u == "INFO" then Some(Info)
    else if u == "ATTENTION" then Some(Attention)
    else if u == "WARNING" then Some(Warning)
    else if u == "ERROR" then Some(Error)
    else None
  }

  /** Level names are matched case-insensitively: a string parses to `lv` exactly
      when it spells `lv`'s name in any mix of upper and lower case. */
  lemma ParseLevelIgnoresCase(s: string, lv: MessageLevel)
    ensures ParseLevel(s) == Some(lv) <==>
              |s| == |Name(lv)| && forall i :: 0 <= i < |s| ==> SameIgnoringCase(s[i], Name(lv)[i])
    ensures ParseLevel(Name(lv)) == Some(lv)
    ensures ParseLevel(Lower(Name(lv))) == Some(lv)
  {
    UpperMatchesIgnoringCase(s, Name(lv));
    var n := Name(lv);
    UpperMatchesIgnoringCase(n, n);
    UpperMatchesIgnoringCase(Lower(n), n);
    assert forall i :: 0 <= i < |n| ==> SameIgnoringCase(Lower(n)[i], n[i]);
  }

  // ---------------------------------------------------------------------------
  // MessageListShow
  // ---------------------------------------------------------------------------

  /** The list filter: every message, or only the messages of one level. */
  datatype Show = ShowAll | Only(level: MessageLevel)

  /** `MessageListShow` members in declaration order: INFO, ATTENTION, WARNING, ERROR, ALL. */
  const ShowDeclared: seq<Show> := [Only(Info), Only(Attention), Only(Warning), Only(Error), ShowAll]

  /** `MessageListShow.name` */
  function ShowName(sh: Show): string {
    match sh
    case ShowAll => "ALL"
    case Only(lv) => Name(lv)
  }

  /** `MessageListShow.value` */
  function ShowValue(sh: Show): int {
    match sh
    case ShowAll => 100
    case Only(lv) => Value(lv)
  }

  /** `succ(True)` on the filter: the next declared member, wrapping from ALL to INFO. */
  function NextShow(sh: Show): (r: Show)
    ensures r != sh
  {
    match sh
    case Only(Info) => Only(Attention)
    case Only(Attention) => Only(Warning)
    case Only(Warning) => Only(Error)
    case Only(Error) => ShowAll
    case ShowAll => Only(Info)
  }

  function ShowIndex(sh: Show): (i: nat)
    ensures i < |ShowDeclared| && ShowDeclared[i] == sh
  {
    match sh
    case Only(Info) => 0
    case Only(Attention) => 1
    case Only(Warning) => 2
    case Only(Error) => 3
    case ShowAll => 4
  }

  /** Cycling the filter moves to the next member in declaration order, wrapping
      around from ALL back to INFO. */
  lemma NextShowIsNextDeclared(sh: Show)
    ensures NextShow(sh) == ShowDeclared[(ShowIndex(sh) + 1) % |ShowDeclared|]
  {
  }

  /** The filter after `k` cycling calls. */
  function CycleShow(sh: Show, k: nat): Show {
    if k == 0 then sh else NextShow(CycleShow(sh, k - 1))
  }

  /** `k` cycling calls land `k` places further along the declaration order, so five
      calls return to the start and every member is reached from every other. */
  lemma {:induction false} CycleShowWraps(sh: Show, k: nat)
    ensures CycleShow(sh, k) == ShowDeclared[(ShowIndex(sh) + k) % |ShowDeclared|]
  {
    if k > 0 {
      CycleShowWraps(sh, k - 1);
      var prev := CycleShow(sh, k - 1);
      NextShowIsNextDeclared(prev);
      assert ShowIndex(prev) == (ShowIndex(sh) + k - 1) % 5;
    }
  }

  /** Five cycling calls return to the start, and every filter is reached from any
      starting filter within five calls. */
  lemma CycleShowReachesAll(sh: Show, t: Show)
    ensures CycleShow(sh, |ShowDeclared|) == sh
    ensures exists k: nat :: k < |ShowDeclared| && CycleShow(sh, k) == t
  {
    CycleShowWraps(sh, 5);
    var k: nat := (ShowIndex(t) - ShowIndex(sh) + 5) % 5;
    CycleShowWraps(sh, k);
    assert (ShowIndex(sh) + k) % 5 == ShowIndex(t);
    assert ShowDeclared[ShowIndex(t)] == t;
  }

  // ---------------------------------------------------------------------------
  // MessageListOrderBy
  // ---------------------------------------------------------------------------

  datatype OrderBy = AddedAt | ByMessageLevel

  /** `MessageListOrderBy.name` */
  function OrderByName(o: OrderBy): string {
    match o
    case AddedAt => "ADDED_AT"
    case ByMessageLevel => "MESSAGE_LEVEL"
  }

  /** `succ(True)` on the order: the other member (two members, wrapping). */
  function NextOrderBy(o: OrderBy): (r: OrderBy)
    ensures r != o
  {
    match o
    case AddedAt => ByMessageLevel
    case ByMessageLevel => AddedAt
  }

  /** Cycling the order twice returns to the start. */
  lemma NextOrderByCycles(o: OrderBy)
    ensures NextOrderBy(NextOrderBy(o)) == o
  {
  }

  /** `MessageListOrderBy[s.upper()]`, or None where Python raises KeyError. */
  function ParseOrderBy(s: string): (r: Option<OrderBy>)
    ensures r.Some? ==> OrderByName(r.value) == Upper(s)
    ensures r.None? ==> forall o: OrderBy :: OrderByName(o) != Upper(s)
  {
    var u := Upper(s);
    if u == "ADDED_AT" then Some(AddedAt)
    else if u == "MESSAGE_LEVEL" then Some(ByMessageLevel)
    else None
  }

  /** No filter name is an order name: a filter name, in any case, never parses
      as an order. */
  lemma ShowNamesAreNotOrderNames(sh: Show)
    ensures ParseOrderBy(ShowName(sh)).None?
  {
    var n := ShowName(sh);
    assert Upper(n) == n by {
      assert forall i :: 0 <= i < |n| ==> !IsLowerChar(n[i]);
    }
  }
}

=== FILE: settings.dfy ===
/** Message items and the persisted settings record: the message list (newest
    first), the highest level present, and the list filter and order. */
module Settings {
  import opened Builtins
  import opened Levels

  /** Icon of an item added without one. */
  const DefaultIcon: string := "mdi:message-badge-outline"

  /** Hours an item added without `remove_after` lives. */
  const DefaultRemoveAfterHours: int := 24

  /** Timestamps are whole seconds; `remove_after` is given in hours. */
  const SecondsPerHour: int := 3600

  /** One log entry. `removeAfter` is the instant after which it expires. */
  datatype MessageItem = MessageItem(
    message: string,
    level: MessageLevel,
    icon: string,
    removeAfter: int,
    notify: bool,
    addedAt: int,
    source: string)

  /** The `message_level` argument: a `MessageLevel` member or a string. */
  datatype LevelArg = LevelMember(member: MessageLevel) | LevelText(text: string)

  /** `MessageItem(...)` constructed at instant `now`. Only a string level is parsed
      (case-insensitively, INFO when no member has that name); a `MessageLevel`
      member passed directly is not a string and leaves the item at INFO. The
      expiry instant counts from `now`, not from `addedAt`. */
  function NewMessageItem(now: int, message: string, levelArg: LevelArg, icon: string,
                          removeAfterHours: int, notify: bool, addedAt: Option<int>,
                          source: string): (r: MessageItem)
    ensures levelArg.LevelMember? ==> r.level == Info
    ensures levelArg.LevelText? ==>
              forall lv: MessageLevel :: Upper(levelArg.text) == Name(lv) ==> r.level == lv
    ensures r.level != Info ==> levelArg.LevelText? && Upper(levelArg.text) == Name(r.level)
    ensures r.removeAfter - now == removeAfterHours * SecondsPerHour
    ensures addedAt.Some? ==> r.addedAt == addedAt.value
    ensures addedAt.None? ==> r.addedAt == now
    ensures r.message == message && r.icon == icon && r.notify == notify && r.source == source
  {
    var level := match levelArg
      case LevelText(t) => ParseLevel(t).GetOr(Info)
      case LevelMember(_) => Info;
    MessageItem(message, level, icon, now + removeAfterHours * SecondsPerHour,
                notify, addedAt.GetOr(now), source)
  }

  /** `MessageItem(message)` with every other argument left at its default. */
  function DefaultMessageItem(now: int, message: string): (r: MessageItem)
    ensures r.message == message
    ensures r.level == Info && r.icon == DefaultIcon && !r.notify && r.source == ""
    ensures r.addedAt == now && r.removeAfter == now + 24 * 3600
  {
    NewMessageItem(now, message, LevelMember(Info), DefaultIcon, DefaultRemoveAfterHours,
                   false, None, "")
  }

  /** Selects the items of one level. */
  function AtLevel(lv: MessageLevel): MessageItem -> bool {
    (x: MessageItem) => x.level == lv
  }

  /** Selects the items of every other level. */
  function NotAtLevel(lv: MessageLevel): MessageItem -> bool {
    (x: MessageItem) => x.level != lv
  }

  /** An item is outdated at `now` once its expiry instant lies strictly before `now`. */
  predicate Outdated(x: MessageItem, now: int) {
    x.removeAfter < now
  }

  /** Selects the items still current at `now`. */
  function Current(now: int): MessageItem -> bool {
    (x: MessageItem) => !Outdated(x, now)
  }

  /** The persisted settings. */
  datatype Settings = Settings(
    highest: MessageLevel,
    messages: seq<MessageItem>,
    show: Show,
    orderBy: OrderBy)

  /** `MessageLogSettings(hass, orderby_message_level)` */
  function NewSettings(orderbyMessageLevel: bool): (r: Settings)
    ensures r.messages == [] && r.highest == Info && r.show == ShowAll
    ensures r.orderBy == ByMessageLevel <==> orderbyMessageLevel
    ensures Consistent(r)
  {
    Settings(Info, [], ShowAll, if orderbyMessageLevel then ByMessageLevel else AddedAt)
  }

  /** The highest level among the items, INFO when there are none. */
  function HighestLevel(items: seq<MessageItem>): (h: MessageLevel)
    ensures forall i :: 0 <= i < |items| ==> !Below(h, items[i].level)
    ensures h == Info || exists i :: 0 <= i < |items| && items[i].level == h
  {
    if items == [] then Info
    else Max(HighestLevel(items[..|items| - 1]), items[|items| - 1].level)
  }

  /** `set_highest_message_level`: a scan that keeps the running maximum and stops
      early once it has seen ERROR; it finds the same level as the full maximum. */
  method SetHighestMessageLevel(items: seq<MessageItem>) returns (h: MessageLevel)
    ensures h == HighestLevel(items)
  {
    h := Info;
    var i := 0;
    while i < |items|
      invariant 0 <= i <= |items|
      invariant h == HighestLevel(items[..i])
    {
      assert items[..i + 1][..i] == items[..i];
      if Below(h, items[i].level) {
        h := items[i].level;
        if h == Error {
          assert items[i] == items[..|items|][i];
          break;
        }
      }
      i := i + 1;
    }
    assert i == |items| ==> items[..i] == items;
  }

  /** The cached highest level agrees with the list. */
  predicate Consistent(st: Settings) {
    st.highest == HighestLevel(st.messages)
  }

  /** `highest_message_level_color` */
  function HighestColor(st: Settings): string {
    Color(st.highest)
  }
}

=== FILE: sorting.dfy ===
/** `create_sorted_message_list`: the list filter ("show") and the two orders.
    Ordered by level, the list is built bucket by bucket, ERROR first, each
    bucket in store order; ordered by time it is the store order itself. */
module Sorting {
  import opened Builtins
  import opened Levels
  import opened Settings

  /** `show == ALL or x.message_level.name == show.name` */
  predicate Shown(x: MessageItem, show: Show) {
    show == ShowAll || Name(x.level) == ShowName(show)
  }

  function ShownBy(show: Show): MessageItem -> bool {
    (x: MessageItem) => Shown(x, show)
  }

  /** The condition of one bucket's comprehension. */
  function InBucket(lv: MessageLevel, show: Show): MessageItem -> bool {
    (x: MessageItem) => x.level == lv && Shown(x, show)
  }

  /** Comparing names is comparing levels: an item is shown exactly when the filter
      is ALL or names the item's own level. */
  lemma ShownIffSameLevel(x: MessageItem, show: Show)
    ensures Shown(x, show) <==> show == ShowAll || show == Only(x.level)
  {
  }

  /** `reversed(MessageLevel)` */
  const Descending: seq<MessageLevel> := [Error, Warning, Attention, Info]

  /** The buckets for `levels`, in that order. */
  function Buckets(items: seq<MessageItem>, levels: seq<MessageLevel>, show: Show): seq<MessageItem> {
    if levels == [] then []
    else Filter(items, InBucket(levels[0], show)) + Buckets(items, levels[1..], show)
  }

  /** Levels never increase along the list. */
  ghost predicate SortedDesc(a: seq<MessageItem>) {
    forall i, j :: 0 <= i < j < |a| ==> !Below(a[i].level, a[j].level)
  }

  /** Strictly decreasing levels (so also without repetitions). */
  ghost predicate StrictlyDescending(ls: seq<MessageLevel>) {
    forall i, j :: 0 <= i < j < |ls| ==> Below(ls[j], ls[i])
  }

  /** The tail of a strictly decreasing level list is strictly decreasing and
      lies wholly below the head. */
  lemma StrictTail(ls: seq<MessageLevel>)
    requires StrictlyDescending(ls) && ls != []
    ensures StrictlyDescending(ls[1..])
    ensures forall lv :: lv in ls[1..] ==> Below(lv, ls[0])
  {
    var rest := ls[1..];
    forall i, j | 0 <= i < j < |rest| ensures Below(rest[j], rest[i]) {
      assert rest[i] == ls[i + 1] && rest[j] == ls[j + 1];
    }
    forall lv | lv in rest ensures Below(lv, ls[0]) {
      var k :| 0 <= k < |rest| && rest[k] == lv;
      assert ls[k + 1] == lv;
    }
  }

  /** `reversed(MessageLevel)` lists every level, strictly decreasing. */
  lemma DescendingComplete(lv: MessageLevel)
    ensures lv in Descending
    ensures StrictlyDescending(Descending)
  {
    match lv
    case Error => assert Descending[0] == lv;
    case Warning => assert Descending[1] == lv;
    case Attention => assert Descending[2] == lv;
    case Info => assert Descending[3] == lv;
  }

  /** The items of `a` regrouped by level, groups in the order of `ls`, each group
      in `a`'s order. */
  function Group(a: seq<MessageItem>, ls: seq<MessageLevel>): seq<MessageItem> {
    if ls == [] then [] else Filter(a, AtLevel(ls[0])) + Group(a, ls[1..])
  }

  /** The source's bucket comprehensions regroup the shown items. */
  lemma {:induction false} BucketsAreGroups(items: seq<MessageItem>, ls: seq<MessageLevel>, show: Show)
    ensures Buckets(items, ls, show) == Group(Filter(items, ShownBy(show)), ls)
  {
    if ls != [] {
      FilterFilter(items, ShownBy(show), AtLevel(ls[0]), InBucket(ls[0], show));
      BucketsAreGroups(items, ls[1..], show);
    }
  }

  /** Every element of a regrouping has one of the grouping levels. */
  lemma {:induction false} GroupLevels(a: seq<MessageItem>, ls: seq<MessageLevel>)
    ensures forall i :: 0 <= i < |Group(a, ls)| ==> Group(a, ls)[i].level in ls
  {
    if ls != [] {
      GroupLevels(a, ls[1..]);
      var f := Filter(a, AtLevel(ls[0]));
      var g := Group(a, ls);
      forall i | 0 <= i < |g| ensures g[i].level in ls {
        if i < |f| {
          assert AtLevel(ls[0])(f[i]);
        } else {
          assert g[i] == Group(a, ls[1..])[i - |f|];
        }
      }
    }
  }

  lemma SortedConcat(a: seq<MessageItem>, b: seq<MessageItem>)
    requires SortedDesc(a) && SortedDesc(b)
    requires forall i, j :: 0 <= i < |a| && 0 <= j < |b| ==> !Below(a[i].level, b[j].level)
    ensures SortedDesc(a + b)
  {
    var c := a + b;
    forall i, j | 0 <= i < j < |c| ensures !Below(c[i].level, c[j].level) {
      if j < |a| {
        assert c[i] == a[i] && c[j] == a[j];
      } else if i >= |a| {
        assert c[i] == b[i - |a|] && c[j] == b[j - |a|];
      } else {
        assert c[i] == a[i] && c[j] == b[j - |a|];
      }
    }
  }

  /** Grouping by strictly decreasing levels sorts by level, highest first. */
  lemma {:induction false} GroupSorted(a: seq<MessageItem>, ls: seq<MessageLevel>)
    requires StrictlyDescending(ls)
    ensures SortedDesc(Group(a, ls))
  {
    if ls != [] {
      var f := Filter(a, AtLevel(ls[0]));
      var rest := Group(a, ls[1..]);
      StrictTail(ls);
      GroupSorted(a, ls[1..]);
      GroupLevels(a, ls[1..]);
      forall i | 0 <= i < |f| ensures f[i].level == ls[0] {
        assert AtLevel(ls[0])(f[i]);
      }
      forall i, j | 0 <= i < |f| && 0 <= j < |rest| ensures !Below(f[i].level, rest[j].level) {
        assert rest[j].level in ls[1..];
      }
      SortedConcat(f, rest);
    }
  }

  /** Selecting one level from a regrouping gives that level's items of the
      original, in the original order (or nothing, for a level not grouped). */
  lemma {:induction false} GroupProjection(a: seq<MessageItem>, ls: seq<MessageLevel>, lv: MessageLevel)
    requires StrictlyDescending(ls)
    ensures Filter(Group(a, ls), AtLevel(lv)) == if lv in ls then Filter(a, AtLevel(lv)) else []
  {
    if ls != [] {
      var f := Filter(a, AtLevel(ls[0]));
      StrictTail(ls);
      GroupProjection(a, ls[1..], lv);
      FilterConcat(f, Group(a, ls[1..]), AtLevel(lv));
      if ls[0] == lv {
        FilterIdempotent(a, AtLevel(lv));
      } else {
        forall i | 0 <= i < |f| ensures !AtLevel(lv)(f[i]) {
          assert AtLevel(ls[0])(f[i]);
        }
        FilterDropsAll(f, AtLevel(lv));
        assert lv in ls <==> lv in ls[1..];
      }
    }
  }

  /** Regrouping depends only on the per-level selections. */
  lemma {:induction false} GroupCongruent(a: seq<MessageItem>, b: seq<MessageItem>, ls: seq<MessageLevel>)
    requires forall lv :: Filter(a, AtLevel(lv)) == Filter(b, AtLevel(lv))
    ensures Group(a, ls) == Group(b, ls)
  {
    if ls != [] {
      GroupCongruent(a, b, ls[1..]);
    }
  }

  /** Appending one item to the regrouped list's source adds it to its level's group. */
  lemma {:induction false} GroupMultisetAppend(a: seq<MessageItem>, x: MessageItem, ls: seq<MessageLevel>)
    requires StrictlyDescending(ls)
    ensures multiset(Group(a + [x], ls)) ==
              multiset(Group(a, ls)) + if x.level in ls then multiset{x} else multiset{}
  {
    if ls != [] {
      var l0, rest := ls[0], ls[1..];
      StrictTail(ls);
      GroupMultisetAppend(a, x, rest);
      var fa := Filter(a, AtLevel(l0));
      FilterConcat(a, [x], AtLevel(l0));
      FilterSingleton(x, AtLevel(l0));
      assert Group(a + [x], ls) == Filter(a + [x], AtLevel(l0)) + Group(a + [x], rest);
      assert Group(a, ls) == fa + Group(a, rest);
      if x.level == l0 {
        assert Filter(a + [x], AtLevel(l0)) == fa + [x];
        assert x.level !in rest;
      } else {
        assert Filter(a + [x], AtLevel(l0)) == fa;
        assert x.level in ls <==> x.level in rest;
      }
    }
  }

  /** Regrouping by all four levels is a permutation. */
  lemma {:induction false} GroupIsPermutation(a: seq<MessageItem>)
    ensures multiset(Group(a, Descending)) == multiset(a)
  {
    if a == [] {
      DescendingComplete(Info);
      GroupOfAbsentLevels(a, Descending);
    } else {
      var a' := a[..|a| - 1];
      var x := a[|a| - 1];
      GroupIsPermutation(a');
      assert a == a' + [x];
      DescendingComplete(x.level);
      GroupMultisetAppend(a', x, Descending);
    }
  }

  /** Levels strictly below every item's level select nothing. */
  lemma GroupsBelowAreEmpty(a: seq<MessageItem>, bound: MessageLevel, ls: seq<MessageLevel>)
    requires forall lv :: lv in ls ==> Below(lv, bound)
    requires forall i :: 0 <= i < |a| ==> !Below(a[i].level, bound)
    ensures Group(a, ls) == []
  {
    forall lv | lv in ls ensures Filter(a, AtLevel(lv)) == [] {
      forall i | 0 <= i < |a| ensures !AtLevel(lv)(a[i]) {
        assert !Below(a[i].level, bound);
      }
      FilterDropsAll(a, AtLevel(lv));
    }
    GroupOfAbsentLevels(a, ls);
  }

  /** Appending an item at or above a floor keeps every item at or above it. */
  lemma AppendKeepsFloor(a: seq<MessageItem>, x: MessageItem, bound: MessageLevel)
    requires forall i :: 0 <= i < |a| ==> !Below(a[i].level, bound)
    requires !Below(x.level, bound)
    ensures forall i :: 0 <= i < |a + [x]| ==> !Below((a + [x])[i].level, bound)
  {
    forall i | 0 <= i < |a + [x]| ensures !Below((a + [x])[i].level, bound) {
      if i < |a| { assert (a + [x])[i] == a[i]; }
    }
  }

  /** Appending an item no higher than every earlier one puts it at the end of
      the regrouping. */
  lemma {:induction false} GroupAppendLowest(a: seq<MessageItem>, x: MessageItem, ls: seq<MessageLevel>)
    requires StrictlyDescending(ls) && x.level in ls
    requires forall i :: 0 <= i < |a| ==> !Below(a[i].level, x.level)
    ensures Group(a + [x], ls) == Group(a, ls) + [x]
  {
    var l0 := ls[0];
    var rest := ls[1..];
    StrictTail(ls);
    FilterConcat(a, [x], AtLevel(l0));
    FilterSingleton(x, AtLevel(l0));
    var fa := Filter(a, AtLevel(l0));
    if x.level == l0 {
      // every remaining level is below x's, so no item of a + [x] falls in those groups
      AppendKeepsFloor(a, x, x.level);
      GroupsBelowAreEmpty(a + [x], x.level, rest);
      GroupsBelowAreEmpty(a, x.level, rest);
      assert Group(a + [x], ls) == (fa + [x]) + [];
      assert Group(a, ls) == fa + [];
    } else {
      assert x.level in rest;
      GroupAppendLowest(a, x, rest);
      assert Group(a + [x], ls) == fa + (Group(a, rest) + [x]);
      assert Group(a, ls) == fa + Group(a, rest);
    }
  }

  /** Grouping by levels none of which occurs yields nothing. */
  lemma {:induction false} GroupOfAbsentLevels(a: seq<MessageItem>, ls: seq<MessageLevel>)
    requires forall lv :: lv in ls ==> Filter(a, AtLevel(lv)) == []
    ensures Group(a, ls) == []
  {
    if ls != [] {
      assert ls[0] in ls;
      GroupOfAbsentLevels(a, ls[1..]);
    }
  }

  /** A list already sorted by level, highest first, is its own regrouping. */
  lemma {:induction false} SortedIsGrouped(a: seq<MessageItem>)
    requires SortedDesc(a)
    ensures Group(a, Descending) == a
  {
    if a == [] {
      GroupOfAbsentLevels(a, Descending);
    } else {
      var a' := a[..|a| - 1];
      var x := a[|a| - 1];
      assert SortedDesc(a');
      SortedIsGrouped(a');
      assert a == a' + [x];
      DescendingComplete(x.level);
      GroupAppendLowest(a', x, Descending);
    }
  }

  /** `create_sorted_message_list(orderby, show)`: the items the filter shows,
      ordered by level (highest first, store order within a level) or in store
      order. */
  function CreateSortedMessageList(items: seq<MessageItem>, orderBy: OrderBy, show: Show): (r: seq<MessageItem>)
    ensures multiset(r) == multiset(Filter(items, ShownBy(show)))
    ensures forall lv :: Filter(r, AtLevel(lv)) == Filter(Filter(items, ShownBy(show)), AtLevel(lv))
    ensures orderBy == ByMessageLevel ==> SortedDesc(r)
    ensures orderBy == AddedAt ==> Subsequence(r, items)
    ensures orderBy == AddedAt && show == ShowAll ==> r == items
  {
    if orderBy == ByMessageLevel then
      var r := Buckets(items, Descending, show);
      var shown := Filter(items, ShownBy(show));
      BucketsAreGroups(items, Descending, show);
      GroupIsPermutation(shown);
      DescendingComplete(Info);
      GroupSorted(shown, Descending);
      forall lv ensures Filter(r, AtLevel(lv)) == Filter(shown, AtLevel(lv)) {
        DescendingComplete(lv);
        GroupProjection(shown, Descending, lv);
      }
      r
    else
      var r := Filter(items, ShownBy(show));
      FilterIsSubsequence(items, ShownBy(show));
      if show == ShowAll then FilterKeepsAll(items, ShownBy(show)); r else r
  }

  /** The level order is the only stable one: any list sorted by level, highest
      first, that holds each level's shown items in store order is exactly the
      list the source builds. */
  lemma SortedMessageListUnique(t: seq<MessageItem>, items: seq<MessageItem>, show: Show)
    requires SortedDesc(t)
    requires forall lv :: Filter(t, AtLevel(lv)) == Filter(Filter(items, ShownBy(show)), AtLevel(lv))
    ensures t == CreateSortedMessageList(items, ByMessageLevel, show)
  {
    var r := CreateSortedMessageList(items, ByMessageLevel, show);
    SortedIsGrouped(t);
    SortedIsGrouped(r);
    GroupCongruent(t, r, Descending);
  }

  /** Both orders hold the same items, and as many as the filter shows; with
      the ALL filter, as many as the store holds. */
  lemma SortedListLength(items: seq<MessageItem>, orderBy: OrderBy, show: Show)
    ensures |CreateSortedMessageList(items, orderBy, show)| == |Filter(items, ShownBy(show))|
    ensures show == ShowAll ==> |CreateSortedMessageList(items, orderBy, show)| == |items|
    ensures forall x :: x in CreateSortedMessageList(items, orderBy, show) <==> x in items && Shown(x, show)
  {
    var r := CreateSortedMessageList(items, orderBy, show);
    var f := Filter(items, ShownBy(show));
    assert |multiset(r)| == |multiset(f)|;
    if show == ShowAll {
      FilterKeepsAll(items, ShownBy(show));
    }
    FilterMembers(items, ShownBy(show));
    forall x ensures x in r <==> x in f {
      assert x in r <==> x in multiset(r);
      assert x in f <==> x in multiset(f);
    }
  }

  /** Sorting by level puts an ERROR item ahead of an INFO item above it. */
  lemma SortedByLevelSwaps(info: MessageItem, err: MessageItem)
    requires info.level == Info && err.level == Error
    ensures CreateSortedMessageList([info, err], ByMessageLevel, ShowAll) == [err, info]
  {
    var items := [info, err];
    FilterKeepsAll(items, ShownBy(ShowAll));
    forall lv: MessageLevel
      ensures Filter([err, info], AtLevel(lv)) == Filter(Filter(items, ShownBy(ShowAll)), AtLevel(lv))
    {
      FilterCons(err, [info], AtLevel(lv));
      FilterCons(info, [err], AtLevel(lv));
      FilterSingleton(info, AtLevel(lv));
      FilterSingleton(err, AtLevel(lv));
    }
    SortedMessageListUnique([err, info], items, ShowAll);
  }
}

=== FILE: store.dfy ===
/** The component's operations on the message list: adding (with the events an
    add fires), removing by level or all, the expiry sweep, and the services that
    change the list order and filter. Every operation here is followed in the
    component by a refresh of the views (module Views). */
module Store {
  import opened Builtins
  import opened Levels
  import opened Settings
  import opened Const

  // ---------------------------------------------------------------------------
  // Component state
  // ---------------------------------------------------------------------------

  /** The component: its settings and the scroll cursor, -1 until the first
      rotation. */
  datatype ApiState = ApiState(settings: Settings, scrollPos: int)

  /** `ComponentApi(...)`: fresh settings ordered by level unless the options
      say otherwise, cursor not started. */
  function NewApi(opts: Options): (r: ApiState)
    ensures r.scrollPos == -1
    ensures r.settings.messages == [] && r.settings.show == ShowAll && Consistent(r.settings)
    ensures r.settings.orderBy == ByMessageLevel <==> opts.orderByMessageLevel != Some(false)
  {
    ApiState(NewSettings(OrderByMessageLevel(opts)), -1)
  }

  // ---------------------------------------------------------------------------
  // Events
  // ---------------------------------------------------------------------------

  /** An event on the host's bus with its payload. */
  datatype Event = Event(eventType: string, message: string, messageLevel: string)

  /** `async_fire_events`: the generic new-entry event, the level-specific one,
      and the notify event when the item asks for it. Every payload carries the
      text and the capitalised level name. */
  function FireEvents(item: MessageItem, names: HostNames): (events: seq<Event>)
    ensures |events| == if item.notify then 3 else 2
    ensures forall i :: 0 <= i < |events| ==>
              events[i].message == item.message && events[i].messageLevel == Capitalize(Name(item.level))
    ensures events[0].eventType == Domain + "." + names.newLogEntry
    ensures events[1].eventType == Domain + "." + names.newLogEntry + "_" + Lower(Name(item.level))
    ensures item.notify ==> events[2].eventType == Domain + "." + names.newNotifyLogEntry
  {
    var level := Capitalize(Name(item.level));
    [Event(Domain + "." + names.newLogEntry, item.message, level),
     Event(Domain + "." + names.newLogEntry + "_" + Lower(Name(item.level)), item.message, level)]
    + (if item.notify then [Event(Domain + "." + names.newNotifyLogEntry, item.message, level)] else [])
  }

  // ---------------------------------------------------------------------------
  // Add
  // ---------------------------------------------------------------------------

  /** The settings after an add, and the events it fired. */
  datatype Added = Added(settings: Settings, events: seq<Event>)

  /** Putting an item in front raises the highest level to the item's level if
      that is higher, and otherwise keeps it. */
  lemma HighestAfterPrepend(item: MessageItem, items: seq<MessageItem>)
    ensures HighestLevel([item] + items) == Max(HighestLevel(items), item.level)
  {
    var s := [item] + items;
    var h, m := HighestLevel(s), Max(HighestLevel(items), item.level);
    assert s[0] == item;
    forall i | 0 <= i < |items| ensures items[i] == s[i + 1] { }
    if h != Info {
      var i :| 0 <= i < |s| && s[i].level == h;
      if i > 0 { assert s[i] == items[i - 1]; }
    }
    var hi := HighestLevel(items);
    if hi != Info {
      var j :| 0 <= j < |items| && items[j].level == hi;
      assert s[j + 1] == items[j];
    }
  }

  /** `async_add_message`: the item goes in front of the list, the older items stay
      behind it in their order, the highest level is recomputed, and the events
      are fired. */
  function AddMessage(st: Settings, item: MessageItem, names: HostNames): (r: Added)
    ensures |r.settings.messages| == |st.messages| + 1
    ensures r.settings.messages[0] == item && r.settings.messages[1..] == st.messages
    ensures Consistent(r.settings)
    ensures Consistent(st) ==> r.settings.highest == Max(st.highest, item.level)
    ensures r.settings.show == st.show && r.settings.orderBy == st.orderBy
    ensures r.events == FireEvents(item, names)
  {
    var messages := [item] + st.messages;
    HighestAfterPrepend(item, st.messages);
    Added(st.(messages := messages, highest := HighestLevel(messages)), FireEvents(item, names))
  }

  /** The arguments of the `add` service; absent keys are None. The timestamp
      string is taken as already converted to an instant. */
  datatype AddCall = AddCall(
    message: string,
    level: Option<LevelArg>,
    icon: Option<string>,
    removeAfterHours: Option<int>,
    notify: Option<bool>,
    addedAt: Option<int>,
    source: Option<string>)

  /** The item the `add` service builds: the options' expiry hours when the call
      has none, the service source tag when the call's source is missing or empty,
      and the constructor's defaults for everything else. */
  function ServiceItem(opts: Options, call: AddCall, now: int, names: HostNames): (item: MessageItem)
    ensures item.message == call.message
    ensures call.removeAfterHours.None? ==> item.removeAfter == now + RemoveAfterHours(opts) * SecondsPerHour
    ensures call.removeAfterHours.Some? ==> item.removeAfter == now + call.removeAfterHours.value * SecondsPerHour
    ensures call.source.None? || call.source == Some("") ==> item.source == names.sourceService
    ensures call.source.Some? && call.source.value != "" ==> item.source == call.source.value
    ensures call.icon.None? ==> item.icon == DefaultIcon
    ensures call.icon.Some? ==> item.icon == call.icon.value
    ensures call.level.None? ==> item.level == Info
    ensures call.level.Some? && call.level.value.LevelText? ==>
              item.level == ParseLevel(call.level.value.text).GetOr(Info)
    ensures call.level.Some? && call.level.value.LevelMember? ==> item.level == Info
    ensures item.notify <==> call.notify == Some(true)
    ensures call.addedAt.None? ==> item.addedAt == now
    ensures call.addedAt.Some? ==> item.addedAt == call.addedAt.value
  {
    var source := if call.source.GetOr("") == "" then names.sourceService else call.source.value;
    NewMessageItem(now, call.message, call.level.GetOr(LevelMember(Info)), call.icon.GetOr(DefaultIcon),
                   call.removeAfterHours.GetOr(RemoveAfterHours(opts)), call.notify.GetOr(false),
                   call.addedAt, source)
  }

  /** `async_add_message_service`: the item built from the call goes in front,
      the older items stay behind it, and the events carry the call's text; the
      notify event is fired exactly when the call asks for it. */
  function AddMessageService(st: Settings, opts: Options, call: AddCall, now: int, names: HostNames): (r: Added)
    ensures |r.settings.messages| == |st.messages| + 1 && r.settings.messages[1..] == st.messages
    ensures r.settings.messages[0] == ServiceItem(opts, call, now, names)
    ensures r.settings.messages[0].message == call.message
    ensures Consistent(r.settings)
    ensures r.settings.show == st.show && r.settings.orderBy == st.orderBy
    ensures |r.events| == (if call.notify == Some(true) then 3 else 2)
    ensures forall i :: 0 <= i < |r.events| ==> r.events[i].message == call.message
    ensures r.events == FireEvents(r.settings.messages[0], names)
    ensures Consistent(st) ==> r.settings.highest == Max(st.highest, r.settings.messages[0].level)
  {
    AddMessage(st, ServiceItem(opts, call, now, names), names)
  }

  /** The comprehension of the remove service drops the item an add call built
      when the call named that level: what it keeps of the list after the add is
      what it kept before. */
  lemma AddedItemFilteredOut(st: Settings, opts: Options, call: AddCall, now: int, names: HostNames,
                             name: string, lv: MessageLevel)
    requires call.level == Some(LevelText(name)) && ParseLevel(name) == Some(lv)
    ensures Filter(AddMessageService(st, opts, call, now, names).settings.messages, NotAtLevel(lv)) ==
            Filter(st.messages, NotAtLevel(lv))
  {
    var added := AddMessageService(st, opts, call, now, names).settings;
    assert added.messages == [added.messages[0]] + st.messages;
    FilterCons(added.messages[0], st.messages, NotAtLevel(lv));
  }

  /** Removing the level named in an add call undoes that add: the list left is
      the one removing that level leaves without the add. */
  lemma RemovingLevelUndoesAdd(st: Settings, opts: Options, call: AddCall, now: int, names: HostNames, name: string)
    requires call.level == Some(LevelText(name)) && ParseLevel(name).Some?
    ensures var added := AddMessageService(st, opts, call, now, names).settings;
            RemoveMessagesService(added, Some(name)).Ok? &&
            RemoveMessagesService(added, Some(name)).value.messages ==
              RemoveMessagesService(st, Some(name)).value.messages
  {
    AddedItemFilteredOut(st, opts, call, now, names, name, ParseLevel(name).value);
  }

  // ---------------------------------------------------------------------------
  // Remove
  // ---------------------------------------------------------------------------

  /** One step of the backward walk: with the suffix after `i` filtered, the
      element at `i` either stays or is cut out, and the suffix from `i` is
      then filtered. */
  lemma DeleteStep<T>(s: seq<T>, keep: T -> bool, i: int, r: seq<T>)
    requires 0 <= i < |s| && r == s[..i + 1] + Filter(s[i + 1..], keep)
    ensures i < |r|
    ensures keep(s[i]) ==> r == s[..i] + Filter(s[i..], keep)
    ensures !keep(s[i]) ==> r[..i] + r[i + 1..] == s[..i] + Filter(s[i..], keep)
  {
    assert s[i..] == [s[i]] + s[i + 1..];
    FilterCons(s[i], s[i + 1..], keep);
    assert s[..i + 1] == s[..i] + [s[i]];
    if !keep(s[i]) {
      assert r[..i] == s[..i];
      assert r[i + 1..] == Filter(s[i + 1..], keep);
    }
  }

  /** The deletion loop of the remove service and the expiry sweep: walk the
      indices from the back and delete each element that is not kept, so that
      earlier indices stay valid. It deletes exactly the elements the filter
      drops, and reports whether it deleted any. */
  method DeleteReverse<T>(s: seq<T>, keep: T -> bool) returns (r: seq<T>, deleted: bool)
    ensures r == Filter(s, keep)
    ensures deleted <==> exists j :: 0 <= j < |s| && !keep(s[j])
  {
    r := s;
    deleted := false;
    var i := |s|;
    while i > 0
      invariant 0 <= i <= |s|
      invariant r == s[..i] + Filter(s[i..], keep)
      invariant deleted <==> exists j :: i <= j < |s| && !keep(s[j])
    {
      i := i - 1;
      DeleteStep(s, keep, i, r);
      if !keep(s[i]) {
        r := r[..i] + r[i + 1..];
        deleted := true;
      } else {
        assert (exists j :: i <= j < |s| && !keep(s[j])) == (exists j :: i + 1 <= j < |s| && !keep(s[j]));
      }
    }
    assert s[0..] == s;
  }

  /** `async_remove_messages_service`. With a level name: a name that is no level
      raises KeyError and changes nothing; otherwise exactly the items of that
      level go and the rest keep their order. Without one, the list is cleared.
      The highest level is recomputed either way. */
  function RemoveMessagesService(st: Settings, levelName: Option<string>): (r: Result<Settings>)
    ensures levelName.None? ==> r.Ok? && r.value.messages == [] && r.value.highest == Info
    ensures levelName.Some? && ParseLevel(levelName.value).None? ==>
              r == Raise(KeyError(Upper(levelName.value)))
    ensures levelName.Some? && ParseLevel(levelName.value).Some? ==>
              var lv := ParseLevel(levelName.value).value;
              && r.Ok?
              && (forall x :: x in r.value.messages <==> x in st.messages && x.level != lv)
              && (forall x :: multiset(r.value.messages)[x] == if x.level != lv then multiset(st.messages)[x] else 0)
              && Subsequence(r.value.messages, st.messages)
              && r.value.messages == Filter(st.messages, NotAtLevel(lv))
    ensures r.Ok? ==> Consistent(r.value) && r.value.show == st.show && r.value.orderBy == st.orderBy
  {
    match levelName
    case None => Ok(st.(messages := [], highest := HighestLevel([])))
    case Some(name) =>
      match ParseLevel(name)
      case None => Raise(KeyError(Upper(name)))
      case Some(lv) =>
        var kept := Filter(st.messages, NotAtLevel(lv));
        FilterIsSubsequence(st.messages, NotAtLevel(lv));
        FilterMembers(st.messages, NotAtLevel(lv));
        FilterCounts(st.messages, NotAtLevel(lv));
        Ok(st.(messages := kept, highest := HighestLevel(kept)))
  }

  // ---------------------------------------------------------------------------
  // Expiry
  // ---------------------------------------------------------------------------

  /** The settings after a sweep, and whether they were written back. */
  datatype Swept = Swept(settings: Settings, saved: bool)

  /** `async_remove_outdated` at instant `now`: deletes exactly the items whose
      expiry instant is strictly before `now`, keeps the rest in order, and only
      when something went recomputes the highest level and saves. */
  function RemoveOutdated(st: Settings, now: int): (r: Swept)
    ensures r.saved <==> exists i :: 0 <= i < |st.messages| && Outdated(st.messages[i], now)
    ensures forall x :: x in r.settings.messages <==> x in st.messages && !Outdated(x, now)
    ensures forall x :: multiset(r.settings.messages)[x] == if !Outdated(x, now) then multiset(st.messages)[x] else 0
    ensures Subsequence(r.settings.messages, st.messages)
    ensures r.settings.messages == Filter(st.messages, Current(now))
    ensures r.saved ==> Consistent(r.settings) && |r.settings.messages| < |st.messages|
    ensures !r.saved ==> r.settings == st
    ensures r.settings.show == st.show && r.settings.orderBy == st.orderBy
  {
    var kept := Filter(st.messages, Current(now));
    FilterIsSubsequence(st.messages, Current(now));
    FilterMembers(st.messages, Current(now));
    FilterCounts(st.messages, Current(now));
    if exists i :: 0 <= i < |st.messages| && Outdated(st.messages[i], now) then
      FilterDropShortens(st.messages, Current(now));
      Swept(st.(messages := kept, highest := HighestLevel(kept)), true)
    else
      FilterKeepsAll(st.messages, Current(now));
      Swept(st, false)
  }

  /** A second sweep at the same instant finds nothing to remove and saves nothing,
      and a sweep keeps the cached highest level in agreement with the list. */
  lemma RemoveOutdatedIdempotent(st: Settings, now: int)
    ensures var once := RemoveOutdated(st, now).settings;
            RemoveOutdated(once, now) == Swept(once, false)
    ensures Consistent(st) ==> Consistent(RemoveOutdated(st, now).settings)
  {
    var once := RemoveOutdated(st, now).settings;
    forall i | 0 <= i < |once.messages| ensures !Outdated(once.messages[i], now) {
      assert once.messages[i] in once.messages;
    }
  }

  // ---------------------------------------------------------------------------
  // Order and filter services
  // ---------------------------------------------------------------------------

  /** `async_messagelist_orderby_service`. Without an order, cycle to the next one
      and leave the cursor alone; with one, take it by name (KeyError for an
      unknown name, nothing changed) and, when more than one message is stored,
      restart the cursor. */
  function OrderByService(api: ApiState, orderBy: Option<string>): (r: Result<ApiState>)
    ensures orderBy.None? ==>
              r.Ok? && r.value.settings.orderBy != api.settings.orderBy && r.value.scrollPos == api.scrollPos
    ensures orderBy.Some? ==>
              (r.Ok? <==> ParseOrderBy(orderBy.value).Some?)
    ensures orderBy.Some? && r.Ok? ==>
              && Upper(orderBy.value) == OrderByName(r.value.settings.orderBy)
              && r.value.scrollPos == (if |api.settings.messages| > 1 then -1 else api.scrollPos)
    ensures r.Ok? ==> r.value.settings == api.settings.(orderBy := r.value.settings.orderBy)
  {
    match orderBy
    case None => Ok(api.(settings := api.settings.(orderBy := NextOrderBy(api.settings.orderBy))))
    case Some(name) =>
      match ParseOrderBy(name)
      case None => Raise(KeyError(Upper(name)))
      case Some(o) =>
        var pos := if |api.settings.messages| > 1 then -1 else api.scrollPos;
        Ok(ApiState(api.settings.(orderBy := o), pos))
  }

  /** `async_messagelist_show_service`. Without a filter, cycle to the next one.
      With one, the name is looked up among the ORDER members and assigned to the
      order, so the filter itself is never changed by this branch. */
  function ShowService(api: ApiState, show: Option<string>): (r: Result<ApiState>)
    ensures show.None? ==> r == Ok(api.(settings := api.settings.(show := NextShow(api.settings.show))))
    ensures show.Some? ==> (r.Ok? <==> ParseOrderBy(show.value).Some?)
    ensures show.Some? && r.Ok? ==>
              && r.value.settings.show == api.settings.show
              && Upper(show.value) == OrderByName(r.value.settings.orderBy)
              && r.value.scrollPos == api.scrollPos
    ensures r.Ok? ==> r.value.scrollPos == api.scrollPos
    ensures show.Some? && r.Ok? ==> r.value.settings == api.settings.(orderBy := r.value.settings.orderBy)
  {
    match show
    case None => Ok(api.(settings := api.settings.(show := NextShow(api.settings.show))))
    case Some(name) =>
      match ParseOrderBy(name)
      case None => Raise(KeyError(Upper(name)))
      case Some(o) => Ok(api.(settings := api.settings.(orderBy := o)))
  }

  /** Naming a filter explicitly never works: every filter name, ALL included,
      raises KeyError, and the filter can only be changed by cycling. */
  lemma ShowServiceRejectsShowNames(api: ApiState, sh: Show)
    ensures ShowService(api, Some(ShowName(sh))).Raise?
    ensures ShowService(api, Some(Lower(ShowName(sh)))).Raise?
  {
    ShowNamesAreNotOrderNames(sh);
    UpperOfLower(ShowName(sh));
  }
}

=== FILE: translate.dfy ===
/** The translation table: a parsed translation file flattened to dotted keys
    (optionally keeping only the keys under a prefix), lookups with a default,
    and the process-wide cache that reloads only on a change of language. */
module Translate {
  import opened Builtins

  /** A parsed JSON value: a leaf (strings stand for every non-object value) or
      an object whose members are kept in file order. */
  datatype Json = Leaf(value: string) | Dict(entries: Entries)

  /** The members of an object, in iteration order. */
  datatype Entries = Nil | Cons(key: string, node: Json, rest: Entries)

  /** The leaf filter of `recursive_flatten`: with a filter, the full key must
      start with it; without one, every leaf is kept. */
  predicate Kept(key: string, loadOnly: string) {
    (loadOnly != "" && StartsWith(key, loadOnly)) || loadOnly == ""
  }

  /** `recursive_flatten(prefix, data, load_only)`: objects are recursed into
      under `prefix + key + "."`; leaves that pass the filter are stored under
      `prefix + key`. Members are taken in order, so a later one overwrites an
      earlier one with the same key. */
  function Flatten(prefix: string, es: Entries, loadOnly: string): (r: map<string, Json>)
    ensures forall key :: key in r ==> r[key].Leaf? && Kept(key, loadOnly)
    decreases es
  {
    match es
    case Nil => map[]
    case Cons(k, Dict(sub), rest) =>
      Flatten(prefix + k + ".", sub, loadOnly) + Flatten(prefix, rest, loadOnly)
    case Cons(k, Leaf(x), rest) =>
      (if Kept(prefix + k, loadOnly) then map[prefix + k := Leaf(x)] else map[]) + Flatten(prefix, rest, loadOnly)
  }

  /** `path` (one key per level) leads from these members to a leaf holding `v`. */
  ghost predicate HasLeaf(es: Entries, path: seq<string>, v: string) {
    match es
    case Nil => false
    case Cons(k, n, rest) =>
      (|path| > 0 && path[0] == k &&
        match n
        case Leaf(x) => |path| == 1 && x == v
        case Dict(sub) => HasLeaf(sub, path[1..], v))
      || HasLeaf(rest, path, v)
  }

  /** The flat key of a path: its keys joined by dots, after `prefix`. */
  function Dotted(prefix: string, path: seq<string>): string
    decreases |path|
  {
    if |path| == 0 then prefix
    else if |path| == 1 then prefix + path[0]
    else Dotted(prefix + path[0] + ".", path[1..])
  }

  /** Every flat key names a leaf of the input: it is the dotted path to a leaf
      holding the stored value. */
  lemma {:induction false} FlattenSound(prefix: string, es: Entries, loadOnly: string, key: string)
    requires key in Flatten(prefix, es, loadOnly)
    ensures exists path :: HasLeaf(es, path, Flatten(prefix, es, loadOnly)[key].value) && Dotted(prefix, path) == key
    decreases es
  {
    var v := Flatten(prefix, es, loadOnly)[key].value;
    match es
    case Cons(k, n, rest) =>
      if key in Flatten(prefix, rest, loadOnly) {
        FlattenSound(prefix, rest, loadOnly, key);
        var path :| HasLeaf(rest, path, v) && Dotted(prefix, path) == key;
        assert HasLeaf(es, path, v);
      } else if n.Leaf? {
        var path := [k];
        assert Dotted(prefix, path) == prefix + k;
        assert HasLeaf(es, path, v);
      } else {
        var sub := n.entries;
        FlattenSound(prefix + k + ".", sub, loadOnly, key);
        var p :| HasLeaf(sub, p, v) && Dotted(prefix + k + ".", p) == key;
        LeafPathNonEmpty(sub, p, v);
        var path := [k] + p;
        assert path[1..] == p;
        assert Dotted(prefix, path) == key;
        assert HasLeaf(es, path, v);
      }
  }

  /** A path that names no leaf names nothing: `HasLeaf` needs a non-empty path. */
  lemma {:induction false} LeafPathNonEmpty(es: Entries, path: seq<string>, v: string)
    requires HasLeaf(es, path, v)
    ensures |path| > 0
  {
    match es
    case Cons(_, _, rest) =>
      if !(|path| > 0) {
        LeafPathNonEmpty(rest, path, v);
      }
  }

  /** Every leaf whose flat key passes the filter is stored; with no filter,
      every leaf is. Objects are always recursed into, whatever the filter. */
  lemma {:induction false} FlattenComplete(prefix: string, es: Entries, loadOnly: string, path: seq<string>, v: string)
    requires HasLeaf(es, path, v) && Kept(Dotted(prefix, path), loadOnly)
    ensures Dotted(prefix, path) in Flatten(prefix, es, loadOnly)
    decreases es
  {
    match es
    case Cons(k, n, rest) =>
      if HasLeaf(rest, path, v) {
        FlattenComplete(prefix, rest, loadOnly, path, v);
      } else if n.Leaf? {
        assert Dotted(prefix, path) == prefix + k;
      } else {
        var sub := n.entries;
        LeafPathNonEmpty(sub, path[1..], v);
        assert Dotted(prefix, path) == Dotted(prefix + k + ".", path[1..]);
        FlattenComplete(prefix + k + ".", sub, loadOnly, path[1..], v);
      }
  }

  /** The flat keys are exactly the dotted leaf paths that pass the filter. */
  lemma FlattenKeys(es: Entries, loadOnly: string, key: string)
    ensures key in Flatten("", es, loadOnly) <==>
              Kept(key, loadOnly) && exists path, v :: HasLeaf(es, path, v) && Dotted("", path) == key
  {
    if key in Flatten("", es, loadOnly) {
      FlattenSound("", es, loadOnly, key);
    }
    if Kept(key, loadOnly) && exists path, v :: HasLeaf(es, path, v) && Dotted("", path) == key {
      var path, v :| HasLeaf(es, path, v) && Dotted("", path) == key;
      FlattenComplete("", es, loadOnly, path, v);
    }
  }

  /** `dict.get(key, default)` */
  function Lookup(table: map<string, Json>, key: string, default: Json): (r: Json)
    ensures key in table ==> r == table[key]
    ensures key !in table ==> r == default
  {
    if key in table then table[key] else default
  }

  /** Looking up the dotted path of a leaf in an unfiltered table finds a leaf
      value stored at that key (the last member with that flat key wins); a key
      that is no leaf's dotted path gives the default. */
  lemma LookupAfterFlatten(es: Entries, key: string, default: Json)
    ensures (exists path, v :: HasLeaf(es, path, v) && Dotted("", path) == key) ==>
              && Lookup(Flatten("", es, ""), key, default).Leaf?
              && exists path :: HasLeaf(es, path, Lookup(Flatten("", es, ""), key, default).value) && Dotted("", path) == key
    ensures (forall path, v :: HasLeaf(es, path, v) ==> Dotted("", path) != key) ==>
              Lookup(Flatten("", es, ""), key, default) == default
  {
    var table := Flatten("", es, "");
    if exists path, v :: HasLeaf(es, path, v) && Dotted("", path) == key {
      var path, v :| HasLeaf(es, path, v) && Dotted("", path) == key;
      FlattenComplete("", es, "", path, v);
    }
    FlattenKeys(es, "", key);
    if key in table {
      FlattenSound("", es, "", key);
      assert Lookup(table, key, default) == table[key];
    }
  }

  // ---------------------------------------------------------------------------
  // Language cache
  // ---------------------------------------------------------------------------

  /** The class-wide cache: the language last asked for and the loaded table. */
  datatype Cache = Cache(language: string, table: map<string, Json>)

  /** A table holding only leaves, as every flattened table does. */
  predicate LeafTable(table: map<string, Json>) {
    forall key :: key in table ==> table[key].Leaf?
  }

  /** The language the fallback file is read for. */
  const FallbackLanguage: string := "en"

  /** `__async_check_language_loaded`, with the translation files given as a map
      from file name to parsed content. On a new language the cache records it
      first, then loads that language's file, else the English one, else keeps
      the old table. The same language never reloads. */
  function CheckLanguageLoaded(cache: Cache, language: string, files: map<string, Entries>,
                               fileName: string, loadOnly: string): (r: Cache)
    ensures r.language == language
    ensures cache.language == language ==> r == cache
    ensures cache.language != language && language + fileName in files ==>
              r.table == Flatten("", files[language + fileName], loadOnly)
    ensures cache.language != language && language + fileName !in files && FallbackLanguage + fileName in files ==>
              r.table == Flatten("", files[FallbackLanguage + fileName], loadOnly)
    ensures cache.language != language && language + fileName !in files && FallbackLanguage + fileName !in files ==>
              r.table == cache.table
    ensures LeafTable(cache.table) ==> LeafTable(r.table)
  {
    if cache.language != language then
      var c := cache.(language := language);
      if language + fileName in files then c.(table := Flatten("", files[language + fileName], loadOnly))
      else if FallbackLanguage + fileName in files then c.(table := Flatten("", files[FallbackLanguage + fileName], loadOnly))
      else c
    else cache
  }

  /** A second check for the same language changes nothing, even with another
      filter or other files: the table is kept from the first load. */
  lemma CheckLanguageLoadedIdempotent(cache: Cache, language: string, files: map<string, Entries>,
                                      files2: map<string, Entries>, fileName: string, loadOnly: string, loadOnly2: string)
    ensures var once := CheckLanguageLoaded(cache, language, files, fileName, loadOnly);
            CheckLanguageLoaded(once, language, files2, fileName, loadOnly2) == once
  {
  }

  /** `async_get_localized_str` without format arguments and with the language
      already resolved: an empty filter falls back to the instance's own, the
      cache is checked, and the key is looked up with the default. */
  function LocalizedStr(cache: Cache, instanceLoadOnly: string, key: string, language: string,
                        files: map<string, Entries>, fileName: string, loadOnly: string,
                        default: Json): (r: (Cache, Json))
    ensures r.0 == CheckLanguageLoaded(cache, language, files, fileName,
                                       if loadOnly == "" then instanceLoadOnly else loadOnly)
    ensures key in r.0.table ==> r.1 == r.0.table[key]
    ensures LeafTable(cache.table) && key in r.0.table ==> r.1.Leaf?
    ensures key !in r.0.table ==> r.1 == default
  {
    var lo := if loadOnly == "" then instanceLoadOnly else loadOnly;
    var c := CheckLanguageLoaded(cache, language, files, fileName, lo);
    (c, Lookup(c.table, key, default))
  }
}

=== FILE: views.dfy ===
/** The scroll cursor, the two markdown views (as structured lines rather than
    HTML text), the sensor accessors, and the refresh that ties them together
    with the expiry sweep. */
module Views {
  import opened Builtins
  import opened Levels
  import opened Settings
  import opened Const
  import opened Store
  import opened Sorting

  // ---------------------------------------------------------------------------
  // Scroll cursor
  // ---------------------------------------------------------------------------

  /** The smaller of two integers. */
  function Min(a: int, b: int): int { if a < b then a else b }

  /** `update_scroll_message_pos` over a sorted view of `sortedLen` items: with at
      most one item the cursor sits at 0; otherwise it steps forward and wraps to
      0 on reaching the view's length or the scroll count. */
  function UpdateScrollMessagePos(pos: int, sortedLen: int, scrollCount: int): (r: int)
    ensures sortedLen <= 1 ==> r == 0
    ensures r == 0 || r == pos + 1
    ensures sortedLen > 1 && pos >= -1 && scrollCount >= 1 ==> 0 <= r < Min(sortedLen, scrollCount)
    ensures pos + 1 >= Min(sortedLen, scrollCount) ==> r == 0
    ensures sortedLen > 1 && pos + 1 < Min(sortedLen, scrollCount) ==> r == pos + 1
  {
    if sortedLen > 1 then
      if pos + 1 >= sortedLen || pos + 1 >= scrollCount then 0 else pos + 1
    else 0
  }

  /** The cursor after `k` refreshes over a view that keeps its length. */
  function Rotate(pos: int, sortedLen: int, scrollCount: int, k: nat): int {
    if k == 0 then pos else UpdateScrollMessagePos(Rotate(pos, sortedLen, scrollCount, k - 1), sortedLen, scrollCount)
  }

  /** Refreshing `k1` times and then `k2` times is refreshing `k1 + k2` times. */
  lemma {:induction false} RotationComposes(pos: int, n: int, c: int, k1: nat, k2: nat)
    ensures Rotate(pos, n, c, k1 + k2) == Rotate(Rotate(pos, n, c, k1), n, c, k2)
  {
    if k2 > 0 {
      RotationComposes(pos, n, c, k1, k2 - 1);
    }
  }

  /** From a position in range (or -1), the cursor stays in range. */
  lemma {:induction false} RotationInRange(pos: int, n: int, c: int, k: nat)
    requires n > 1 && c >= 1 && -1 <= pos < Min(n, c)
    ensures -1 <= Rotate(pos, n, c, k) < Min(n, c)
    ensures k > 0 ==> 0 <= Rotate(pos, n, c, k)
  {
    if k > 0 {
      RotationInRange(pos, n, c, k - 1);
    }
  }

  /** Before reaching the bound the cursor moves one place per refresh. */
  lemma {:induction false} RotationAdvances(pos: int, n: int, c: int, k: nat)
    requires n > 1 && c >= 1 && -1 <= pos && pos + k < Min(n, c)
    ensures Rotate(pos, n, c, k) == pos + k
  {
    if k > 0 {
      RotationAdvances(pos, n, c, k - 1);
    }
  }

  /** From a position in range, `m = min(len, scroll count)` refreshes bring
      the cursor back: `m - 1 - p` steps reach `m - 1`, one more wraps to 0,
      and `p` more return to `p`. */
  lemma RotationReturns(p: int, n: int, c: int)
    requires n > 1 && c >= 1 && 0 <= p < Min(n, c)
    ensures Rotate(p, n, c, Min(n, c)) == p
  {
    var m := Min(n, c);
    RotationAdvances(p, n, c, m - 1 - p);
    assert Rotate(p, n, c, m - 1 - p) == m - 1;
    RotationComposes(p, n, c, m - 1 - p, 1);
    assert Rotate(p, n, c, m - p) == 0;
    RotationComposes(p, n, c, m - p, p);
    RotationAdvances(0, n, c, p);
  }

  /** Over a view of more than one item the cursor runs round the first
      `m = min(len, scroll count)` positions: starting from -1 (not started)
      the `j`-th refresh shows position `j - 1` for `j` up to `m`, and from
      any start in range the positions repeat with period `m`. */
  lemma RotationCycles(pos: int, n: int, c: int, k: nat)
    requires n > 1 && c >= 1 && -1 <= pos < Min(n, c) && pos + k >= 0
    ensures forall j: nat :: 1 <= j <= Min(n, c) ==> Rotate(-1, n, c, j) == j - 1
    ensures Rotate(pos, n, c, k + Min(n, c)) == Rotate(pos, n, c, k)
  {
    forall j: nat | 1 <= j <= Min(n, c)
      ensures Rotate(-1, n, c, j) == j - 1
    {
      RotationAdvances(-1, n, c, j);
    }
    RotationInRange(pos, n, c, k);
    RotationComposes(pos, n, c, k, Min(n, c));
    RotationReturns(Rotate(pos, n, c, k), n, c);
  }

  // ---------------------------------------------------------------------------
  // Markdown views
  // ---------------------------------------------------------------------------

  /** The icon of both views' header. */
  const HeaderIcon: string := "mdi:message-outline"

  /** The localised words the views use, taken as given. */
  datatype Labels = Labels(message: string, messages: string, lastMessage: string)

  /** One markdown line: a header, or an item with its colour, icon, label, text
      and the instant its relative-time phrase is computed from. */
  datatype MdLine =
    | Header(color: string, icon: string, title: string)
    | Line(color: string, icon: string, caption: string, text: string, addedAt: int)

  function ItemLine(x: MessageItem, caption: string): MdLine {
    Line(Color(x.level), x.icon, caption, x.message, x.addedAt)
  }

  /** The header shown when there is nothing to list. */
  function EmptyHeader(tr: Labels): MdLine {
    Header(Color(Info), HeaderIcon, tr.message)
  }

  /** The latest-and-scroll view and the cursor after it. */
  datatype Latest = Latest(lines: seq<MdLine>, scrollPos: int)

  /** `async_create_markdown_latest_and_scroll`. With an empty store, only the
      header, in INFO's colour. Otherwise the header in the highest level's
      colour and the newest item, and, when the unfiltered sorted view has more
      than one item, the cursor advances once and the view's item at the cursor
      follows. Nothing stops that item from being the newest one again. */
  function LatestAndScroll(st: Settings, sortedAll: seq<MessageItem>, pos: int, scrollCount: int,
                           tr: Labels): (r: Result<Latest>)
    ensures |st.messages| == 0 ==> r == Ok(Latest([EmptyHeader(tr)], pos))
    ensures pos >= -1 ==> r.Ok?
    ensures r.Ok? && |st.messages| > 0 ==>
              && |r.value.lines| == (if |sortedAll| > 1 then 3 else 2)
              && r.value.lines[0] == Header(HighestColor(st), HeaderIcon, tr.message)
              && r.value.lines[1] == ItemLine(st.messages[0], tr.lastMessage)
    ensures r.Ok? && |st.messages| > 0 && |sortedAll| > 1 ==>
              && r.value.scrollPos == UpdateScrollMessagePos(pos, |sortedAll|, scrollCount)
              && (0 <= r.value.scrollPos ==> r.value.lines[2] == ItemLine(sortedAll[r.value.scrollPos], tr.messages))
    ensures r.Ok? && (|st.messages| == 0 || |sortedAll| <= 1) ==> r.value.scrollPos == pos
  {
    if |st.messages| > 0 then
      var head := [Header(HighestColor(st), HeaderIcon, tr.message), ItemLine(st.messages[0], tr.lastMessage)];
      if |sortedAll| > 1 then
        var p := UpdateScrollMessagePos(pos, |sortedAll|, scrollCount);
        match PyIndex(sortedAll, p)
        case Raise(e) => Raise(e)
        case Ok(item) => Ok(Latest(head + [ItemLine(item, tr.messages)], p))
      else Ok(Latest(head, pos))
    else Ok(Latest([EmptyHeader(tr)], pos))
  }

  /** The item lines of the list view: the loop emits an item while its running
      position `countPos` has not passed `count`. */
  function ItemLines(items: seq<MessageItem>, countPos: int, count: int): (r: seq<MdLine>)
    ensures |r| == Min(|items|, if count - countPos + 1 > 0 then count - countPos + 1 else 0)
    ensures forall i :: 0 <= i < |r| ==> r[i] == ItemLine(items[i], "")
  {
    if items == [] || countPos > count then []
    else [ItemLine(items[0], "")] + ItemLines(items[1..], countPos + 1, count)
  }

  /** `async_create_markdown_message_list` over the sorted and filtered view:
      header only (INFO's colour) when the view is empty; otherwise the header
      in the highest level's colour and the first `count` items of the view. */
  function MessageListView(st: Settings, sorted: seq<MessageItem>, count: int, tr: Labels): (r: seq<MdLine>)
    ensures |sorted| == 0 ==> r == [EmptyHeader(tr)]
    ensures |sorted| > 0 ==>
              && |r| - 1 == Min(|sorted|, if count > 0 then count else 0)
              && r[0] == Header(HighestColor(st), HeaderIcon, tr.messages)
              && forall i :: 0 <= i < |r| - 1 ==> r[i + 1] == ItemLine(sorted[i], "")
  {
    if |sorted| > 0 then [Header(HighestColor(st), HeaderIcon, tr.messages)] + ItemLines(sorted, 1, count)
    else [EmptyHeader(tr)]
  }

  // ---------------------------------------------------------------------------
  // Sensor accessors
  // ---------------------------------------------------------------------------

  /** Icon shown when there is no message. */
  const NoMessageIcon: string := "mdi:message-off-outline"

  /** `get_message(num)`: the text at `num` (Python indexing) when the list is
      longer than `num`, else the empty string. */
  function GetMessage(items: seq<MessageItem>, num: int): (r: Result<string>)
    ensures 0 <= num < |items| ==> r == Ok(items[num].message)
    ensures num >= |items| ==> r == Ok("")
    ensures -|items| <= num < 0 ==> r == Ok(items[|items| + num].message)
    ensures num < -|items| ==> r.Raise?
  {
    if |items| > num then
      match PyIndex(items, num)
      case Ok(x) => Ok(x.message)
      case Raise(e) => Raise(e)
    else Ok("")
  }

  /** `message_last` */
  function MessageLast(items: seq<MessageItem>): string {
    match GetMessage(items, 0)
    case Ok(m) => m
    case Raise(_) => assert false; ""
  }

  /** `message_last_icon` */
  function MessageLastIcon(items: seq<MessageItem>): string {
    if |items| > 0 then items[0].icon else NoMessageIcon
  }

  /** `message_level_last` */
  function MessageLevelLast(items: seq<MessageItem>): string {
    if |items| > 0 then Capitalize(Name(items[0].level)) else ""
  }

  /** `message_source_last` */
  function MessageSourceLast(items: seq<MessageItem>): string {
    if |items| > 0 then Capitalize(items[0].source) else ""
  }

  /** `message_level_color_last` */
  function MessageLevelColorLast(items: seq<MessageItem>): string {
    if |items| > 0 then Color(items[0].level) else Color(Info)
  }

  /** `highest_message_level` */
  function HighestMessageLevelName(st: Settings): string {
    Capitalize(Name(st.highest))
  }

  /** `message_scroll`: indexes the UNSORTED store with the cursor, which counts
      positions in the sorted view. */
  function MessageScroll(items: seq<MessageItem>, pos: int): (r: Result<string>)
    ensures |items| <= 1 ==> r == Ok("")
    ensures |items| > 1 && 0 <= pos < |items| ==> r == Ok(items[pos].message)
    ensures |items| > 1 && -|items| <= pos < 0 ==> r == Ok(items[|items| + pos].message)
    ensures |items| > 1 ==> (r.Ok? <==> -|items| <= pos < |items|)
  {
    if |items| > 1 then
      match PyIndex(items, pos)
      case Ok(x) => Ok(x.message)
      case Raise(e) => Raise(e)
    else Ok("")
  }

  /** `message_scroll_icon`, indexed the same way. */
  function MessageScrollIcon(items: seq<MessageItem>, pos: int): (r: Result<string>)
    ensures |items| <= 1 ==> r == Ok(NoMessageIcon)
    ensures |items| > 1 && 0 <= pos < |items| ==> r == Ok(items[pos].icon)
    ensures |items| > 1 && -|items| <= pos < 0 ==> r == Ok(items[|items| + pos].icon)
    ensures |items| > 1 ==> (r.Ok? <==> -|items| <= pos < |items|)
  {
    if |items| > 1 then
      match PyIndex(items, pos)
      case Ok(x) => Ok(x.icon)
      case Raise(e) => Raise(e)
    else Ok(NoMessageIcon)
  }

  /** After an add, the "last" accessors describe the added item and the
      highest level's name accounts for it; on an empty store they give their
      placeholders. */
  lemma AccessorsAfterAdd(st: Settings, item: MessageItem, names: HostNames)
    ensures var items := AddMessage(st, item, names).settings.messages;
            && MessageLast(items) == item.message
            && MessageLastIcon(items) == item.icon
            && MessageLevelLast(items) == Capitalize(Name(item.level))
            && MessageSourceLast(items) == Capitalize(item.source)
            && MessageLevelColorLast(items) == Color(item.level)
    ensures Consistent(st) ==>
              HighestMessageLevelName(AddMessage(st, item, names).settings) == Capitalize(Name(Max(st.highest, item.level)))
    ensures MessageLast([]) == "" && MessageLastIcon([]) == NoMessageIcon && MessageLevelLast([]) == ""
    ensures MessageSourceLast([]) == "" && MessageLevelColorLast([]) == Color(Info)
  {
  }

  // ---------------------------------------------------------------------------
  // Refresh
  // ---------------------------------------------------------------------------

  /** The component after a refresh, whether the sweep saved, and the two views. */
  datatype Refreshed = Refreshed(api: ApiState, saved: bool, markdown: seq<MdLine>, markdownList: seq<MdLine>)

  /** `async_update` at instant `now`: sweep out outdated items, then build the
      latest-and-scroll view from the unfiltered sorted list (advancing the
      cursor) and the list view from the sorted list under the current filter. */
  function Refresh(api: ApiState, now: int, opts: Options, tr: Labels): (r: Result<Refreshed>)
    ensures r.Ok? ==> r.value.api.settings == RemoveOutdated(api.settings, now).settings
    ensures r.Ok? ==> r.value.saved == RemoveOutdated(api.settings, now).saved
    ensures var st := RemoveOutdated(api.settings, now).settings;
            var latest := LatestAndScroll(st, CreateSortedMessageList(st.messages, st.orderBy, ShowAll),
                                          api.scrollPos, ScrollThroughCount(opts), tr);
            && (r.Ok? <==> latest.Ok?)
            && (r.Ok? ==> r.value.markdown == latest.value.lines && r.value.api.scrollPos == latest.value.scrollPos)
    ensures var st := RemoveOutdated(api.settings, now).settings;
            r.Ok? ==> r.value.markdownList ==
                        MessageListView(st, CreateSortedMessageList(st.messages, st.orderBy, st.show),
                                        MarkdownListCount(opts), tr)
  {
    var swept := RemoveOutdated(api.settings, now);
    var st := swept.settings;
    var sortedAll := CreateSortedMessageList(st.messages, st.orderBy, ShowAll);
    match LatestAndScroll(st, sortedAll, api.scrollPos, ScrollThroughCount(opts), tr)
    case Raise(e) => Raise(e)
    case Ok(latest) =>
      var shown := CreateSortedMessageList(st.messages, st.orderBy, st.show);
      Ok(Refreshed(ApiState(st, latest.scrollPos), swept.saved, latest.lines,
                   MessageListView(st, shown, MarkdownListCount(opts), tr)))
  }

  /** What the component keeps true between operations: the cached highest level
      matches the list and the cursor is a position or -1. */
  predicate ApiInvariant(api: ApiState) {
    Consistent(api.settings) && api.scrollPos >= -1
  }

  /** A refresh never raises from a state satisfying the invariant, keeps the
      invariant, leaves no outdated item, and leaves the cursor inside the
      store (so `message_scroll` cannot raise) whenever the store holds more
      than one item; with at most one item the cursor is not touched. */
  lemma RefreshInvariant(api: ApiState, now: int, opts: Options, tr: Labels)
    requires ApiInvariant(api) && ScrollThroughCount(opts) >= 1
    ensures Refresh(api, now, opts, tr).Ok?
    ensures var after := Refresh(api, now, opts, tr).value.api;
            && ApiInvariant(after)
            && (forall x :: x in after.settings.messages ==> !Outdated(x, now))
            && (|after.settings.messages| > 1 ==>
                  && 0 <= after.scrollPos < Min(|after.settings.messages|, ScrollThroughCount(opts))
                  && MessageScroll(after.settings.messages, after.scrollPos).Ok?)
            && (|after.settings.messages| <= 1 ==> after.scrollPos == api.scrollPos)
  {
    var st := RemoveOutdated(api.settings, now).settings;
    RemoveOutdatedIdempotent(api.settings, now);
    SortedListLength(st.messages, st.orderBy, ShowAll);
  }

  /** The latest-and-scroll view never raises from a cursor at -1 or above, and
      has at most three lines. */
  lemma LatestBounded(st: Settings, sortedAll: seq<MessageItem>, pos: int, scrollCount: int, tr: Labels)
    requires pos >= -1
    ensures LatestAndScroll(st, sortedAll, pos, scrollCount, tr).Ok?
    ensures |LatestAndScroll(st, sortedAll, pos, scrollCount, tr).value.lines| <= 3
  {
  }

  /** With a count of at most 100, the list view holds a header and at most 100 items. */
  lemma ListViewBounded(st: Settings, sorted: seq<MessageItem>, count: int, tr: Labels)
    requires count <= 100
    ensures 1 <= |MessageListView(st, sorted, count, tr)| <= 101
  {
  }

  /** With options inside the bounds the options form enforces, a refresh never
      raises, the latest-and-scroll view has at most three lines, and the list
      view at most a header and 100 items. */
  lemma RefreshWithFormOptions(api: ApiState, now: int, opts: Options, tr: Labels)
    requires ApiInvariant(api) && OptionsInRange(opts)
    ensures Refresh(api, now, opts, tr).Ok?
    ensures |Refresh(api, now, opts, tr).value.markdown| <= 3
    ensures 1 <= |Refresh(api, now, opts, tr).value.markdownList| <= 101
  {
    var st := RemoveOutdated(api.settings, now).settings;
    LatestBounded(st, CreateSortedMessageList(st.messages, st.orderBy, ShowAll),
                  api.scrollPos, ScrollThroughCount(opts), tr);
    ListViewBounded(st, CreateSortedMessageList(st.messages, st.orderBy, st.show), MarkdownListCount(opts), tr);
  }

  /** The operations that change the store or the preferences keep the invariant. */
  lemma OperationsKeepInvariant(api: ApiState, item: MessageItem, names: HostNames, arg: Option<string>)
    requires ApiInvariant(api)
    ensures ApiInvariant(api.(settings := AddMessage(api.settings, item, names).settings))
    ensures RemoveMessagesService(api.settings, arg).Ok? ==>
              ApiInvariant(api.(settings := RemoveMessagesService(api.settings, arg).value))
    ensures OrderByService(api, arg).Ok? ==> ApiInvariant(OrderByService(api, arg).value)
    ensures ShowService(api, arg).Ok? ==> ApiInvariant(ShowService(api, arg).value)
  {
  }

  /** Ordered by time added, the view the cursor walks is the store itself: when
      the cursor wraps (or has not started) the scroll line shows the newest
      item again, right under the latest-message line. */
  lemma ScrollLineMayRepeatLatest(st: Settings, pos: int, scrollCount: int, tr: Labels)
    requires |st.messages| > 1 && st.orderBy == AddedAt && scrollCount >= 1
    requires pos == -1 || pos + 1 >= Min(|st.messages|, scrollCount)
    ensures var r := LatestAndScroll(st, CreateSortedMessageList(st.messages, st.orderBy, ShowAll), pos, scrollCount, tr);
            && r.Ok? && r.value.scrollPos == 0
            && r.value.lines[1] == ItemLine(st.messages[0], tr.lastMessage)
            && r.value.lines[2] == ItemLine(st.messages[0], tr.messages)
  {
  }

  /** Ordered by time added, after a refresh the scroll sensor and the scroll
      line of the markdown show the same item. */
  lemma ScrollSensorAgreesByAddedAt(api: ApiState, now: int, opts: Options, tr: Labels)
    requires ApiInvariant(api) && ScrollThroughCount(opts) >= 1 && api.settings.orderBy == AddedAt
    requires |RemoveOutdated(api.settings, now).settings.messages| > 1
    ensures var r := Refresh(api, now, opts, tr).value;
            var items := r.api.settings.messages;
            && r.markdown[2] == ItemLine(items[r.api.scrollPos], tr.messages)
            && MessageScroll(items, r.api.scrollPos) == Ok(items[r.api.scrollPos].message)
  {
    RefreshInvariant(api, now, opts, tr);
  }

  /** Ordered by level, the scroll sensor need not show the item the markdown's
      scroll line shows: with an INFO item above an ERROR item, the first
      refresh puts the cursor on 0; the markdown shows the ERROR item (first in
      the sorted view) and the sensor the INFO item (first in the store). */
  lemma MessageScrollIgnoresSortOrder(info: MessageItem, err: MessageItem, now: int, opts: Options, tr: Labels)
    requires info.level == Info && err.level == Error
    requires !Outdated(info, now) && !Outdated(err, now) && ScrollThroughCount(opts) >= 1
    ensures var api := ApiState(Settings(Error, [info, err], ShowAll, ByMessageLevel), -1);
            var r := Refresh(api, now, opts, tr);
            && r.Ok? && r.value.api.settings.messages == [info, err] && r.value.api.scrollPos == 0
            && r.value.markdown[2] == ItemLine(err, tr.messages)
            && r.value.markdown[2] != ItemLine(info, tr.messages)
            && MessageScroll(r.value.api.settings.messages, 0) == Ok(info.message)
  {
    var st := Settings(Error, [info, err], ShowAll, ByMessageLevel);
    var swept := RemoveOutdated(st, now);
    assert !swept.saved;
    SortedByLevelSwaps(info, err);
    var l := LatestAndScroll(st, [err, info], -1, ScrollThroughCount(opts), tr);
    assert l.Ok? && l.value.scrollPos == 0;
    assert Color(Error) != Color(Info);
  }
}
